=== FILE: README.md ===
# Egg Emergency — a Dafny model of the match logic

This project models the simulation core of *Egg Emergency*, a browser game in which a
human catcher and three computer catchers (novice, intermediate, expert) catch falling
eggs. Two source files make up that core.

The class `EggEmergencyGame` in `js/game.js` covers:
- the countdown, and difficulty rising by 0.5 steps;
- egg spawning, the per-frame egg loop and its catch/drop scoring;
- the human's lane, jump and double jump;
- the three-egg buffer with its transfer, cooldown and combo multiplier;
- the power-up and AI-ability timers;
- the achievement flags and the final ranking.

The per-bot state machine in `js/ai.js` covers:
- holding a caught egg;
- wandering;
- target selection with bomb avoidance and golden-egg preference;
- the reaction delay, pursuit and the catch roll.

The source changes state in place, and the model keeps that form:

- `Game.EggGame` is a class whose fields are the game's fields. Every method names the
  fields it modifies. Its `ensures` gives the new value of each changed field in terms of
  the old state and the specification functions. For a bot, that value is the `AI.Bot.Steps`
  relation between its old and new snapshot, because a bot's move depends on its draws.
- `AI.Bot` is a class holding a bot's mutable `userData` fields and its lane position.
- The pure formulas the methods are proved against live in three modules:
  - `Rules`: spawn pacing, countdown, combo, transfer value, ranking, scaling,
    achievements, and the power-up and ability timers.
  - `Physics`: the egg loop and buffer collection as values.
  - `Jumping`: the jump flag machine.
- `Entities` holds the value types (eggs, catchers, vectors, the score table) and the
  catch and drop arithmetic.

Every `Math.random()` draw is a parameter: `Game.FrameDraws` for one frame and
`AI.BotDraws` for one bot. The human's collision test is also a parameter, the predicate
`touches`, because the source calls a `checkCollision` that it never defines. Positions,
timers and scores are `real`, so the arithmetic is exact. The catch test compares the
squared distance with 2.25 instead of comparing the distance with 1.5.

## Model

| member | source | states |
|---|---|---|
| Entities.Clamp | js/ai.js:243-244 | The result lies in [lo, hi]; an in-range value is unchanged; a value below or above is pinned to that bound. |
| Entities.CatchZoneIsNear | js/game.js:641-644 | An egg in the catch zone (squared distance below 2.25, height strictly between 1 and 4) is inside the height window and less than 1.5 from its catcher along x and along z. |
| Entities.Points | js/game.js:1171-1175 | Only bombs are worth a negative amount, and every value lies in [-2, 3]; the exact worth of a whole buffer is stated by `Rules.BufferValueByCount`. |
| Entities.CatchAward | js/game.js:666-695 | A caught bomb gives max(0, s - 2), never more than max(s, 0). A golden or normal egg adds exactly its points (3 or 1), with no floor. From a non-negative score the result is max(0, s + points). |
| Entities.DropPenalty | js/game.js:596-606 | A dropped bomb changes nothing. Any other dropped egg gives s - 1 when s >= 1 and 0 when s < 1, so a negative score is raised to 0. A non-negative score stays in [0, s]. |
| Entities.Scores.Set | js/game.js:598-605 | Exactly the named catcher's entry takes the new value; every other entry is unchanged. |
| Physics.Fall | js/game.js:576 | The egg drops by the frame's distance; its kind, target, x and z are unchanged. |
| Physics.FateOf | js/game.js:583-616 | An egg is dropped exactly when it is at or below the ground. A caught egg is between heights 1 and 4 and less than 1.5 from its target along x. An egg at height 4 or above stays in flight. |
| Physics.Settle | js/game.js:583-616 | Only the egg's target can change score. A dropped egg takes the target's score to `DropPenalty` of it: a bomb changes nothing, any other egg costs 1, floored at 0. A caught egg takes it to `CatchAward` of it. An airborne egg changes nothing. Non-negative tables (all entries, or the AI entries) stay non-negative. |
| Physics.ResolveEggs | js/game.js:570-618 | The back-to-front pass never adds eggs. |
| Physics.ResolveKeepsInvariant | js/game.js:570-618 | After the pass every egg left is above the ground and outside its target's catch zone; score tables that were non-negative stay so. |
| Physics.ResolveFrom | js/game.js:572-616 | Resolving from index i settles egg i after everything behind it, as the reverse loop does. |
| Physics.ResolveKeepsExactlyTheFalling | js/game.js:572-616 | Splicing while walking backwards skips no egg: the kept list equals the front-to-back filter of eggs still in flight. |
| Physics.ResolveTouchesOnlyTargets | js/game.js:597-606 | A catcher that no egg targets keeps its score through the whole pass. |
| Physics.DroppedEggCostsItsTarget | js/game.js:596-606 | A single non-bomb egg that reaches the ground this frame is removed, costs its target 1 floored at 0, and leaves every other score unchanged. |
| Physics.DroppedBombsAreNeutral | js/game.js:596-612 | Bombs that all reach the ground are removed and change no score. |
| Physics.Collect | js/game.js:910-930 | The corrected buffer pass. A buffer within the cap stays within it, and every egg left was in the input. Its reference definition is `CollectTakesTheFirstTouching`. |
| Physics.CollectConserves | js/game.js:910-930 | The buffer only grows at its end; no egg is lost (list plus buffer sizes are preserved); unless the buffer is full, no egg left in the list touches the human. |
| Physics.CountTouching | js/game.js:910-911 | The number of touching eggs in a list is at most its length. |
| Physics.TakenMask | js/game.js:910-911 | The mask of the eggs the pass takes has one entry per egg. It is the reference that `CollectTakesTheFirstTouching` is stated against. |
| Physics.Select | js/game.js:910-930 | The order-keeping filter by mask is never longer than its input; which eggs it keeps is stated by `SelectFrom`. |
| Physics.SelectFrom | js/game.js:910-930 | Every egg the filter keeps sits at a position whose mask entry is the wanted value. |
| Physics.KindsOf | js/game.js:913-916 | The kinds of a list of eggs, one per egg. |
| Physics.TakenMaskCons | js/game.js:910-912 | The first egg is taken exactly when it touches and there is room; the rest of the mask is the mask of the tail, with one place less when the first egg touched. |
| Physics.NoRoomTakesNothing | js/game.js:911 | With no room left, the mask does not depend on how far the room is exceeded. |
| Physics.TakenEggsTouch | js/game.js:911-916 | Only eggs that touch the human are buffered. |
| Physics.CollectTakesTheFirstTouching | js/game.js:910-930 | The pass buffers exactly the first (cap - buffer size) touching eggs, appending their kinds in list order. The kept list is the input without them, in order. |
| Physics.TakeHead | js/game.js:911-920 | When the first egg is taken, the reference form for the tail extends to the whole list, with that egg's kind buffered first. |
| Physics.KeepHead | js/game.js:911-913 | When the first egg stays, the reference form for the tail extends to the whole list, with that egg kept first. |
| Physics.SelectTakenHead | js/game.js:911-920 | A taken first egg leaves the kept list and heads the buffered kinds. |
| Physics.CollectFrom | js/game.js:911-917 | Collecting from index i first decides about egg i: into the buffer if it touches and there is room, otherwise kept. |
| Physics.ForEachCollect | js/game.js:910-930 | The pass as written: the buffer stays within the cap, and list plus buffer sizes are preserved. |
| Physics.ForEachSkipsTheNextEgg | js/game.js:910-930 | With two touching eggs and an empty buffer, the pass as written buffers one egg and leaves the other; the corrected pass buffers both. |
| Rules.SpawnInterval | js/game.js:873 | The interval is never below 0.5, at most 2 for non-negative difficulty, and exactly 0.5 from difficulty 7.5 on. |
| Rules.SpawnIntervalAntitone | js/game.js:873 | Higher difficulty never gives a longer interval. |
| Rules.SpawnKind | js/game.js:526-527 | The egg is normal exactly when the first draw is below 0.85, and golden exactly when it is not and the second draw is below 0.9. |
| Rules.SpawnTarget | js/game.js:532-552 | The target's index i satisfies i <= 4r < i + 1, so each catcher owns a quarter of [0, 1). |
| Rules.CountdownStep | js/game.js:441-448 | One second takes the clock down by 1; difficulty rises by at most 0.5, and rises exactly when the new time is a positive multiple of 15. |
| Rules.QuarterStep | js/game.js:446 | Second k completes a quarter exactly when 60 - k is a multiple of 15. |
| Rules.CountdownDifficulty | js/game.js:440-453 | From (60, 1), after k <= 60 seconds the clock reads 60 - k and difficulty is 1 + 0.5 per completed quarter (2.5 at the end). |
| Rules.CountdownMonotone | js/game.js:440-453 | Difficulty never decreases over any number of seconds, and the clock loses exactly one per second. |
| Rules.ComboOnTransfer | js/game.js:1185-1188 | A transfer increments the streak and sets the window to 3. The best streak becomes the larger of the old best and the new streak. The multiplier is 1 + 0.2 (combo - 1). |
| Rules.ComboDecay | js/game.js:1156-1164 | A window that closes this frame resets the streak and multiplier; an open or unused window changes only its timer; the best streak is kept. |
| Rules.StreakMultiplier | js/game.js:1185-1188 | n transfers, each followed by less than 3 s, extend the streak by n, with multiplier 1 + 0.2 (combo - 1). |
| Rules.StreakEndsAfterWindow | js/game.js:1157-1162 | After a transfer, 3 s or more without one ends the streak. |
| Rules.BufferValueBounds | js/game.js:1170-1175 | A buffer of n eggs is worth between -2n and 3n points. |
| Rules.BufferValueByCount | js/game.js:1170-1175 | The accumulated buffer value equals 3 per golden egg plus 1 per normal egg minus 2 per bomb, whatever the order of the buffer. |
| Rules.TransferIsNotFloored | js/game.js:1178-1181 | One transferred bomb at score 0 leaves a negative score: the transfer has no floor. |
| Rules.Standings | js/game.js:821-826 | Four standings in entry order, each carrying its catcher's score. |
| Rules.Insert | js/game.js:828 | Stable insertion: the result is the input plus x, as a multiset. |
| Rules.Ranking | js/game.js:828 | The sort is a permutation of its input. |
| Rules.ConsSorted | js/game.js:828 | A head that outranks every member keeps a ranking ordered and stable. |
| Rules.InsertSorted | js/game.js:828 | Inserting an earlier entrant into an ordered, stable ranking keeps it ordered and stable. |
| Rules.RankingSortedAndStable | js/game.js:828 | The sort orders by descending score, keeps ties in entry order, and is a permutation. |
| Rules.WinnerHasTopScore | js/game.js:828-832 | The announced winner holds the top score. |
| Rules.StandingsInEntryOrder | js/game.js:821-826 | The standings list human, novice, intermediate, expert in that order. |
| Rules.FinalRanking | js/game.js:821-832 | The final ranking has all four standings, highest first, ties in entry order, and the winner holds the top score. |
| Rules.DifficultyScaling | js/game.js:1242-1253 | The AI cooldown factor is at least 0.5, and at most 1 for a non-negative score; within the match the rates lie in their [1x, 2x] ranges. |
| Rules.CheckAchievements | js/game.js:1399-1424 | Earned achievements are never lost, every triggered achievement is earned, and nothing else is added. |
| Rules.DecayPowerUp | js/game.js:1140-1154 | An inactive power-up is unchanged; it stays active only with time still left; its pickup is untouched. |
| Rules.CollectPowerUp | js/game.js:1087-1103 | A collected power-up is active for 10 s and its pickup is gone. |
| Rules.PowerUpLastsItsDuration | js/game.js:1140-1154 | With positive frame times, a collected power-up is on exactly while less than its duration has elapsed. |
| Rules.InactiveStaysOff | js/game.js:1142 | An inactive power-up stays unchanged over any frames. |
| Rules.DecayAbility | js/game.js:1255-1268 | A running cooldown loses dt; a finished one is left alone. A running effect loses dt, stays as it was while time is left, and switches off when its time runs out. An effect with no time left is unchanged. Nothing switches on. |
| Rules.AbilityTimes | js/game.js:1274-1295 | Each AI's effect is shorter than its cooldown. |
| Rules.ActivateAbility | js/game.js:1270-1296 | Activation is refused while the cooldown runs; otherwise the effect runs and the cooldown outlasts it. |
| Rules.NoReactivationWithinCooldown | js/game.js:1258-1272 | An activated ability cannot be activated again before its cooldown has elapsed. |
| Rules.CooldownRunsDown | js/game.js:1258-1260 | While it has not expired, the cooldown equals its start minus the elapsed time. |
| Rules.SumNonNegative | js/game.js:1258-1260 | A helper for the timer lemmas: non-negative frame times have a non-negative sum, so the elapsed time never runs backwards. |
| Rules.EndedAbilityStaysOff | js/game.js:1262-1266 | An effect that is off with no time left stays off over any frames. |
| Rules.EffectLastsItsDuration | js/game.js:1262-1266 | With positive frame times, a running effect is on exactly while the frames sum to less than its time left. |
| Rules.AbilityLastsItsDuration | js/game.js:1255-1296 | An activated AI effect is on exactly while less than its length (5, 8 or 10 s) has passed. |
| Jumping.Jump | js/game.js:996-1013 | From the ground: jump at full force and arm the double jump. Armed in the air: jump at 0.4 and disarm. Otherwise nothing happens. A double jump happens only in the air. |
| Jumping.JumpPhysics | js/game.js:892-902 | A jump never ends below ground level; landing stops at ground level with zero speed; the double-jump flags are untouched. |
| Jumping.SpaceAsWritten | js/game.js:166-169 | The listener as written does nothing while a jump is in progress, and never starts a double jump. |
| Jumping.SpaceIntended | js/game.js:166-169 | With every press reaching the jump routine, an armed press in the air performs the double jump at speed 0.4. |
| Jumping.AsWrittenNeverDoubleJumps | js/game.js:166-169 | With the Space listener's guard as written, no sequence of presses and frames ever performs a double jump. |
| Jumping.IntendedDoubleJumps | js/game.js:996-1013 | With every press reaching the jump routine, a second press in the air performs the double jump. |
| AI.ProfileOf | js/ai.js:7-82 | Each skill profile has positive reaction time and speed, probabilities in [0, 1], and lane [-14, 14]; only the expert prefers golden eggs. |
| AI.PlayerKey | js/ai.js:202-203 | A bot's egg key is never the human's. |
| AI.PlayerKeysDistinct | js/ai.js:202-203 | Different bots have different keys, so no egg is a candidate for two bots. |
| AI.TargetsBelow | js/ai.js:195-211 | The candidates are exactly the indices of eggs aimed at the key, in increasing order. |
| AI.FindTargetEggs | js/ai.js:195-211 | The loop returns exactly the candidate index list. |
| AI.SelectTarget | js/ai.js:143-174 | The scan's result is the specified choice: the first kept golden egg when preferred, else the nearest kept egg (earliest on ties), else -1. |
| AI.ChoiceIsUnique | js/ai.js:152-174 | The selection specification determines a single result. |
| AI.CertainAvoidanceNeverPicksBomb | js/ai.js:156-159 | With avoidance 1 no bomb is chosen, and an egg is chosen whenever a non-bomb candidate exists. |
| AI.PursuitStep | js/ai.js:218-241 | A pursuit step moves at most one step and never passes the aim point; within one step it lands on it exactly. |
| AI.ErrorOffset | js/ai.js:181-186 | The offset is 0 unless the mistake roll is below the probability; it always lies in [-1.5, 1.5). |
| AI.Bot.constructor | js/ai.js:7-82 | A fresh bot has its profile, stands at the origin and has no target, timers at 0 and no egg. |
| AI.Bot.DoRandomMovement | js/ai.js:248-256 | The bot drifts at half speed in its direction, clamped into the arena. |
| AI.Bot.MoveTowardEgg | js/ai.js:214-245 | A winning catch roll inside the window holds the egg for 1 s without moving; otherwise the bot takes a clamped pursuit step and stays in the arena. |
| AI.Bot.HandleEggTransfer | js/ai.js:259-269 | The timer runs down by dt; at 0 the egg is released and the target cleared; otherwise the flags are kept. |
| AI.Bot.Update | js/ai.js:93-192 | The bot keeps its profile and stays in the arena, and its old and new snapshots satisfy `Steps`. Holding an egg, only the transfer timer runs. Otherwise the wander timer runs and is renewed. With no candidate the bot wanders. With a target it reacts, then pursues or drops a stale index. Without one it selects per `IsChoice`, resets the reaction timer and rolls the error offset. |
| AI.Bot.Decide | js/ai.js:112-191 | The decision half of the update for a bot not holding an egg, with the same case split as `Update`. |
| Game.PowerUpKindOf | js/game.js:1052-1053 | Each kind owns a third of [0, 1): speed boost below 1/3, egg magnet from 1/3 to below 2/3, shield from 2/3. |
| Game.HumanStep | js/game.js:762-781 | The human stays within [-14, 14]; with no key it stays put; left never moves right and right never moves left. |
| Game.SpliceAt | js/game.js:594 | Splitting a sequence around one element and rejoining the parts. |
| Game.SpliceReplace | js/game.js:594 | Replacing the middle element of a three-part sequence. |
| Game.DecayPowerUps | js/game.js:1140-1154 | One frame of decay keeps the same power-up slots. |
| Game.SpawnedEgg | js/game.js:524-568 | The new egg has the drawn target and kind, and starts 20 above its target's x and z. It is in flight: neither dropped nor caught. |
| Game.Pending | js/game.js:872-877 | The list the egg loop starts from is the old list, plus one new egg at its end when the spawn timer fires. |
| Game.MatchEggs | js/game.js:869-884 | With no match running the spawn timer, the eggs and the scores are unchanged. |
| Game.FrameSeconds | js/game.js:865-866 | The frame length is the time-stamp difference divided by 1000, and is non-negative when time does not run backwards. |
| Game.EggGame.constructor | js/game.js:7-154 | The initial state: no match running, 60 s, difficulty 1, zero scores, no eggs, idle timers, the stored high score and achievements, and three fresh bots. |
| Game.EggGame.StartGame | js/game.js:424-463 | Scores zeroed, clock at 60, difficulty 1, countdown and match running, the catchers on their start positions, bots in the arena. |
| Game.EggGame.ResetMatch | js/game.js:428-453 | Scores zeroed, clock at 60, difficulty 1, countdown running. |
| Game.EggGame.PositionPlayers | js/game.js:465-504 | The four catchers stand at (-6, 0), (0, 6), (6, 0), (0, -6), on the ground. |
| Game.EggGame.EndGame | js/game.js:789-836 | The match and countdown stop; the ranking is the four standings, highest first, ties in entry order. |
| Game.EggGame.Tick | js/game.js:440-453 | One countdown second per `CountdownStep`. At 0 the match ends and the final ranking is produced: a permutation of the standings, highest first, ties in entry order. |
| Game.EggGame.SpawnEgg | js/game.js:524-568 | Exactly one egg is appended, of the drawn kind and target, 20 above its target. |
| Game.EggGame.CatchEgg | js/game.js:654-699 | Only the named catcher's score changes, by `CatchAward`. |
| Game.EggGame.CheckEggPlayerCollision | js/game.js:620-652 | Inside the catch zone the egg is scored and spliced out; otherwise nothing changes. |
| Game.EggGame.SettleEgg | js/game.js:573-616 | One loop step: egg i is replaced by its survivor, if any, and scores change by `Settle`. |
| Game.EggGame.UpdateEggs | js/game.js:570-618 | The in-place reverse loop computes `ResolveEggs` of the old eggs and scores. |
| Game.EggGame.UpdateHumanPlayer | js/game.js:762-781 | The human's lane becomes `HumanStep` of the keys held. |
| Game.EggGame.CollectTouchingEggs | js/game.js:910-930 | The buffer loop computes `Collect`. It is the corrected, skip-free pass, so the buffer never exceeds 3. |
| Game.EggGame.TransferEggs | js/game.js:1166-1207 | During the cooldown nothing changes. Otherwise the human gains buffer value times multiplier, unfloored; the combo advances; the high score follows; the buffer empties; the cooldown is 0.5. |
| Game.EggGame.UpdateCombo | js/game.js:1156-1164 | The combo becomes `ComboDecay` of the old combo. |
| Game.EggGame.UpdatePowerUps | js/game.js:1140-1154 | The slots stay the same, and every power-up becomes `DecayPowerUp` of its old value. |
| Game.EggGame.CollectPowerUp | js/game.js:1087-1103 | Only the collected slot changes, to `Rules.CollectPowerUp` of its old value. |
| Game.EggGame.SpawnPowerUp | js/game.js:1051-1075 | On a draw below 0.1 a pickup of the drawn kind appears 15 up at the drawn arena point; otherwise nothing changes. |
| Game.EggGame.CheckPowerUpPickups | js/game.js:946-954 | The slots become `CollectNearby` of the old slots: exactly the pickups nearer than 1 to the human are collected. |
| Game.EggGame.UpdateDifficulty | js/game.js:1242-1253 | The scaling becomes `DifficultyScaling` of the clock and the human's score. |
| Game.EggGame.UpdateAIAbilities | js/game.js:1255-1268 | The keys stay the same, and every ability becomes `DecayAbility` of its old value. |
| Game.EggGame.ActivateAIAbility | js/game.js:1270-1296 | Only the named AI's ability changes, by `ActivateAbility`. |
| Game.EggGame.UnlockAchievement | js/game.js:1426-1434 | The achievement is earned and stays earned; nothing else changes. |
| Game.EggGame.CheckAchievements | js/game.js:1399-1424 | The earned set becomes `Rules.CheckAchievements` of the old set. |
| Game.EggGame.Jump | js/game.js:996-1013 | The jump state becomes `Jumping.Jump` of the old state. |
| Game.EggGame.UpdateJumpPhysics | js/game.js:892-902 | The jump state becomes `Jumping.JumpPhysics` of the old state. |
| Game.EggGame.KeyDown | js/game.js:380-394 | Arrows set the movement flags only while the match runs. Space reaches `jump()` (the corrected guard). E with a non-empty buffer and no cooldown transfers. A press that transfers nothing leaves scores, combo, buffer, high score and cooldown unchanged. |
| Game.EggGame.KeyUp | js/game.js:396-410 | Arrows clear the movement flags only while the match runs. |
| Game.EggGame.Update | js/game.js:859-981 | The time stamp is recorded. On the first frame the eggs, scores, buffer, lane, jump, combo, power-ups, achievements and bots are unchanged. On later frames the new state is the `Advance` of the state by `FrameSeconds` of the two stamps, written out field by field. With no match running the bots are unchanged. Bots in the arena stay in it. |
| Game.EggGame.Advance | js/game.js:869-977 | While the match runs, the spawn timer, eggs and scores follow `MatchEggs`, the human takes a `HumanStep` and each bot `Steps` on the settled eggs. Otherwise these and the bots are unchanged. Then, on every frame: the buffer pass is `Collect` of the settled eggs, the jump follows `JumpPhysics`, and the cooldown runs down. The power-ups are decayed, placed and collected, the combo follows `ComboDecay`, and the scaling and abilities are updated. The achievements are checked. |
| Game.EggGame.UpdateEveryFrame | js/game.js:891-977 | Scores are unchanged. The jump follows `JumpPhysics`, and the cooldown runs down. The buffer pass is `Collect`. The power-ups are `CollectNearby(PlacePickup(DecayPowerUps(...)))`. The combo follows `ComboDecay`, the scaling follows `DifficultyScaling`, the abilities follow `DecayAbilities`, and the achievements are checked. |
| Game.EggGame.UpdateMatch | js/game.js:869-884 | The spawn timer resets exactly when it reaches the interval, and then one egg is spawned. The eggs and scores then follow `ResolveEggs`, and the human takes a `HumanStep`. Each bot `Steps` on the settled eggs and stays in the arena. |
| Game.EggGame.UpdateFalling | js/game.js:871-881 | The spawn timer and the spawn, followed by the egg loop: the eggs and scores are `ResolveEggs` of the pending list. |
| Game.EggGame.MatchIfActive | js/game.js:869-884 | When the match runs, the timer, eggs and scores follow `MatchEggs`, the human steps and every bot `Steps`. Otherwise nothing in the match part changes, the bots included. |
| Game.EggGame.UpdateAI | js/game.js:783-787 | Each of the three bots takes one update: its old and new snapshots satisfy `Steps` on the current eggs, and a bot in the arena stays in it. |
| Game.EggGame.UpdateHumanState | js/game.js:892-939 | The jump follows `JumpPhysics` and the cooldown counts down. The buffer pass is `Collect`, the combo follows `ComboDecay`, and the power-ups follow `DecayPowerUps`. |
| Game.EggGame.UpdatePickups | js/game.js:941-954 | The slots become `CollectNearby(PlacePickup(old slots, draws), human)`: the drawn pickup is placed, then every pickup near the human is collected. |
| Game.EggGame.UpdateTimers | js/game.js:970-977 | The scaling follows `DifficultyScaling`, every ability follows `DecayAbilities`, and the achievements are checked. |

## Left out

- Rendering, audio, particles, DOM updates, `localStorage`/`JSON.parse`, scenery and animation (`js/audio.js`, `js/particles.js`, `js/models.js`, `js/main.js`, and the Three.js parts of `js/game.js`): they have no effect on game state. The high score and the earned achievements are plain fields initialised from the constructor's parameters.
- `requestAnimationFrame` and `setInterval` scheduling: a frame is a call to `Update` with its time stamp, and a countdown second is a call to `Tick`.
- `Math.random()` distributions (85% normal eggs, the 1% power-up frame, catch rates): each draw is a parameter, so no statistical property is stated.
- IEEE doubles: every quantity is an exact `real`.
- `checkCollision` (js/game.js:911) is not defined in the source; the human's collision test is the parameter `touches`. `updateScore` (js/game.js:1182) is not defined either and is modelled as doing nothing.
- The egg-magnet and speed-boost effects (js/game.js:957-968) rely on vector normalisation and on a `moveSpeed` field that is never defined, so they are not modelled.
- `keys.action` (js/game.js:389-391, 405-407) is written and never read, so it is not modelled.
- `restartGame`, `showTutorial`, `backToMenu` and the display helpers are not modelled.
- `stats` is never incremented in the source. Achievements are checked against it as given, and no lemma claims one fires.
- The bots stand at height 0 (their y is never changed). The human starts at the origin before `positionPlayers`.
- The transfer is not floored at 0. Every other deduction floors at 0: the drop penalty (js/game.js:599-605) and the bomb catch (js/game.js:669-675). `transferEggs` adds the raw product (js/game.js:1181), and the model follows it; `Rules.TransferIsNotFloored` shows a score going negative.
- Game.EggGame.KeyDown: follows the corrected Space listener. Every Space press reaches `Jumping.Jump`, whereas js/game.js:166-169 ignores Space while a jump is in progress. The listener as written is `Jumping.SpaceAsWritten`, and the Findings table records the difference.
- Game.EggGame.CollectTouchingEggs: follows the corrected, skip-free buffer pass, not the `forEach` with `splice` at js/game.js:910-930 that skips the egg after each caught one. `Update`, `Advance`, `UpdateEveryFrame` and `UpdateHumanState` inherit this through `Physics.Collect`. The pass as written is `Physics.ForEachCollect`.
- Game.EggGame.Update: on the first frame, the timers, the keys and the cooldown are not restated as unchanged. On later frames every field `Advance` changes is stated, the bots included.
- Game.EggGame.UpdateAIAbilities: requires the ability table to hold exactly the three AI keys, as the constructor creates it.

## Findings

| source | as written | input that shows it | evidently intended | confidence | as-written member | corrected member |
|---|---|---|---|---|---|---|
| js/game.js:910-930 | `forEach` over `this.eggs` calls `splice(index, 1)` on a caught egg, so the next egg slides into the freed index and is never examined that frame | two eggs that both touch the human, with an empty buffer | every egg is examined once, so both go into the buffer | not executed | Physics.ForEachSkipsTheNextEgg | Game.EggGame.CollectTouchingEggs |
| js/game.js:166-169 | the Space listener calls `jump()` only when `!this.isJumping`, so `jump()`'s mid-air double-jump branch (1005-1012) is unreachable | Space pressed, one frame of jump physics, Space pressed again | the second press performs the double jump | not executed | Jumping.AsWrittenNeverDoubleJumps | Jumping.IntendedDoubleJumps |

=== FILE: ai.dfy ===
/**
 * The per-bot decision engine of the three computer catchers: skill
 * profiles, the candidate filter, target selection, pursuit with its catch
 * roll, idle wandering and the holding state after a catch. Every
 * `Math.random()` draw the source makes is a field of `BotDraws`.
 */
module AI {
  import opened Entities

  datatype BotKind = Novice | Intermediate | Expert

  /** The fixed part of a bot's `userData`: its skill profile and lane bounds. */
  datatype Profile = Profile(
    kind: BotKind,
    reactionTime: real,
    catchProbability: real,
    mistakeProbability: real,
    baseMoveSpeed: real,
    avoidBombProbability: real,
    prioritizeGoldenEggs: bool,
    minX: real,
    maxX: real)

  /** The three skill profiles set up by `initializeAI`. */
  function ProfileOf(kind: BotKind): (p: Profile)
    ensures p.kind == kind
    ensures 0.0 < p.reactionTime && 0.0 < p.baseMoveSpeed
    ensures 0.0 <= p.catchProbability <= 1.0 && 0.0 <= p.mistakeProbability <= 1.0
    ensures 0.0 <= p.avoidBombProbability <= 1.0
    ensures p.minX == -14.0 && p.maxX == 14.0
    ensures p.prioritizeGoldenEggs <==> kind == Expert
  {
    match kind
    case Novice => Profile(Novice, 0.8, 0.6, 0.3, 3.0, 0.4, false, -14.0, 14.0)
    case Intermediate => Profile(Intermediate, 0.5, 0.8, 0.15, 5.0, 0.7, false, -14.0, 14.0)
    case Expert => Profile(Expert, 0.2, 0.95, 0.05, 7.0, 0.9, true, -14.0, 14.0)
  }

  /** Key of the eggs meant for a bot: novice ai1, intermediate ai2, anything else ai3. */
  function PlayerKey(kind: BotKind): (c: Catcher)
    ensures c != Human
  {
    if kind == Novice then Ai1 else if kind == Intermediate then Ai2 else Ai3
  }

  /** Each bot owns its own key, so no egg is a candidate for two bots. */
  lemma PlayerKeysDistinct(a: BotKind, b: BotKind)
    requires a != b
    ensures PlayerKey(a) != PlayerKey(b)
  {
  }

  // ----- candidates -----------------------------------------------------

  /** Indices below `n` of the eggs aimed at `key`, in increasing order. */
  function TargetsBelow(key: Catcher, eggs: seq<Egg>, n: nat): (r: seq<nat>)
    requires n <= |eggs|
    ensures forall j :: 0 <= j < |r| ==> r[j] < n && eggs[r[j]].target == key
    ensures forall i :: 0 <= i < n && eggs[i].target == key ==> i in r
    ensures forall a, b :: 0 <= a < b < |r| ==> r[a] < r[b]
  {
    if n == 0 then []
    else TargetsBelow(key, eggs, n - 1) + (if eggs[n - 1].target == key then [n - 1] else [])
  }

  function TargetIndices(key: Catcher, eggs: seq<Egg>): seq<nat>
  {
    TargetsBelow(key, eggs, |eggs|)
  }

  /** `findTargetEggs`: the indices of the eggs whose target is this bot's key. */
  method FindTargetEggs(kind: BotKind, eggs: seq<Egg>) returns (targetEggs: seq<nat>)
    ensures targetEggs == TargetIndices(PlayerKey(kind), eggs)
  {
    targetEggs := [];
    var i := 0;
    while i < |eggs|
      invariant 0 <= i <= |eggs|
      invariant targetEggs == TargetsBelow(PlayerKey(kind), eggs, i)
    {
      var playerKey := if kind == Novice then Ai1 else if kind == Intermediate then Ai2 else Ai3;
      if eggs[i].target == playerKey {
        targetEggs := targetEggs + [i];
      }
      i := i + 1;
    }
  }

  // ----- selection ------------------------------------------------------

  ghost predicate ValidCandidates(eggs: seq<Egg>, cands: seq<nat>)
  {
    forall j :: 0 <= j < |cands| ==> cands[j] < |eggs|
  }

  /** Candidate `j` survives the bomb roll: it is not a bomb, or its draw is not below the avoidance probability. */
  predicate Kept(eggs: seq<Egg>, cands: seq<nat>, j: int, avoid: real, bombRoll: nat -> real)
    requires 0 <= j < |cands| && cands[j] < |eggs|
  {
    var i := cands[j];
    !(eggs[i].kind == Bomb && bombRoll(i) < avoid)
  }

  predicate GoldenKept(eggs: seq<Egg>, cands: seq<nat>, j: int, avoid: real, bombRoll: nat -> real)
    requires 0 <= j < |cands| && cands[j] < |eggs|
  {
    Kept(eggs, cands, j, avoid, bombRoll) && eggs[cands[j]].kind == Golden
  }

  function Dist(eggs: seq<Egg>, cands: seq<nat>, j: int, x: real): real
    requires 0 <= j < |cands| && cands[j] < |eggs|
  {
    Abs(eggs[cands[j]].pos.x - x)
  }

  /**
   * Candidate `p` is the one to target: it survived its bomb roll and it is
   * the first kept golden egg when golden eggs are preferred and one is
   * kept; otherwise it is the nearest kept egg, the earliest among equals.
   */
  ghost predicate BestAt(eggs: seq<Egg>, cands: seq<nat>, x: real, preferGolden: bool, avoid: real, bombRoll: nat -> real, p: int)
    requires ValidCandidates(eggs, cands) && 0 <= p < |cands|
  {
    && Kept(eggs, cands, p, avoid, bombRoll)
    && if preferGolden && exists q :: 0 <= q < |cands| && GoldenKept(eggs, cands, q, avoid, bombRoll) then
         && GoldenKept(eggs, cands, p, avoid, bombRoll)
         && forall q :: 0 <= q < p ==> !GoldenKept(eggs, cands, q, avoid, bombRoll)
       else
         && (forall q :: 0 <= q < |cands| && Kept(eggs, cands, q, avoid, bombRoll) ==> Dist(eggs, cands, p, x) <= Dist(eggs, cands, q, x))
         && (forall q :: 0 <= q < p && Kept(eggs, cands, q, avoid, bombRoll) ==> Dist(eggs, cands, q, x) > Dist(eggs, cands, p, x))
  }

  /** `best` is the selected egg index, or -1 when every candidate was skipped. */
  ghost predicate IsChoice(eggs: seq<Egg>, cands: seq<nat>, x: real, preferGolden: bool, avoid: real, bombRoll: nat -> real, best: int)
    requires ValidCandidates(eggs, cands)
  {
    if exists q :: 0 <= q < |cands| && Kept(eggs, cands, q, avoid, bombRoll) then
      exists p :: 0 <= p < |cands| && best == cands[p] && BestAt(eggs, cands, x, preferGolden, avoid, bombRoll, p)
    else best == -1
  }

  /**
   * The selection loop of `updateAIPlayer`: bombs may be skipped by their
   * roll, a preferred golden egg ends the scan, otherwise the strictly
   * nearer egg replaces the running best.
   */
  method SelectTarget(eggs: seq<Egg>, cands: seq<nat>, x: real, preferGolden: bool, avoid: real, bombRoll: nat -> real)
    returns (best: int)
    requires ValidCandidates(eggs, cands)
    ensures best == -1 || 0 <= best < |eggs|
    ensures IsChoice(eggs, cands, x, preferGolden, avoid, bombRoll, best)
  {
    best := -1;
    var closestDistance := 0.0;  // stands for Infinity while best == -1
    ghost var at := -1;
    var i := 0;
    while i < |cands|
      invariant 0 <= i <= |cands|
      invariant best == -1 <==> forall q :: 0 <= q < i ==> !Kept(eggs, cands, q, avoid, bombRoll)
      invariant best != -1 ==> 0 <= at < i && best == cands[at] && Kept(eggs, cands, at, avoid, bombRoll)
      invariant best != -1 ==> closestDistance == Dist(eggs, cands, at, x)
      invariant best != -1 ==> forall q :: 0 <= q < i && Kept(eggs, cands, q, avoid, bombRoll) ==> Dist(eggs, cands, at, x) <= Dist(eggs, cands, q, x)
      invariant best != -1 ==> forall q :: 0 <= q < at && Kept(eggs, cands, q, avoid, bombRoll) ==> Dist(eggs, cands, q, x) > Dist(eggs, cands, at, x)
      invariant preferGolden ==> forall q :: 0 <= q < i ==> !GoldenKept(eggs, cands, q, avoid, bombRoll)
    {
      var eggIndex := cands[i];
      var egg := eggs[eggIndex];
      if !(egg.kind == Bomb && bombRoll(eggIndex) < avoid) {
        var distance := Abs(egg.pos.x - x);
        assert Kept(eggs, cands, i, avoid, bombRoll);
        if preferGolden && egg.kind == Golden {
          assert GoldenKept(eggs, cands, i, avoid, bombRoll);
          best, at := eggIndex, i;
          assert BestAt(eggs, cands, x, preferGolden, avoid, bombRoll, at);
          return;
        }
        if best == -1 || distance < closestDistance {
          closestDistance := distance;
          best, at := eggIndex, i;
        }
      } else {
        assert !Kept(eggs, cands, i, avoid, bombRoll);
      }
      i := i + 1;
    }
    if best != -1 {
      assert BestAt(eggs, cands, x, preferGolden, avoid, bombRoll, at);
    }
  }

  /** The selection is determined: two results that both meet the specification are equal. */
  lemma ChoiceIsUnique(eggs: seq<Egg>, cands: seq<nat>, x: real, preferGolden: bool, avoid: real, bombRoll: nat -> real, b1: int, b2: int)
    requires ValidCandidates(eggs, cands)
    requires IsChoice(eggs, cands, x, preferGolden, avoid, bombRoll, b1)
    requires IsChoice(eggs, cands, x, preferGolden, avoid, bombRoll, b2)
    ensures b1 == b2
  {
    if exists q :: 0 <= q < |cands| && Kept(eggs, cands, q, avoid, bombRoll) {
      var p1 :| 0 <= p1 < |cands| && b1 == cands[p1] && BestAt(eggs, cands, x, preferGolden, avoid, bombRoll, p1);
      var p2 :| 0 <= p2 < |cands| && b2 == cands[p2] && BestAt(eggs, cands, x, preferGolden, avoid, bombRoll, p2);
      assert p1 == p2;
    }
  }

  /**
   * With bomb avoidance at 1 and draws in [0, 1), a bomb is never selected,
   * and some egg is selected whenever a non-bomb candidate exists.
   */
  lemma CertainAvoidanceNeverPicksBomb(eggs: seq<Egg>, cands: seq<nat>, x: real, preferGolden: bool, bombRoll: nat -> real, best: int)
    requires ValidCandidates(eggs, cands)
    requires forall i :: 0.0 <= bombRoll(i) < 1.0
    requires IsChoice(eggs, cands, x, preferGolden, 1.0, bombRoll, best)
    ensures best != -1 ==> 0 <= best < |eggs| && eggs[best].kind != Bomb
    ensures (exists j :: 0 <= j < |cands| && eggs[cands[j]].kind != Bomb) ==> best != -1
  {
    if exists j :: 0 <= j < |cands| && eggs[cands[j]].kind != Bomb {
      var j :| 0 <= j < |cands| && eggs[cands[j]].kind != Bomb;
      assert Kept(eggs, cands, j, 1.0, bombRoll);
    }
    if exists q :: 0 <= q < |cands| && Kept(eggs, cands, q, 1.0, bombRoll) {
      var p :| 0 <= p < |cands| && best == cands[p] && BestAt(eggs, cands, x, preferGolden, 1.0, bombRoll, p);
      assert Kept(eggs, cands, p, 1.0, bombRoll);
    }
  }

  // ----- movement and catching -------------------------------------------

  /**
   * One pursuit step before clamping: a full step of `step` toward
   * `targetX`, or exactly `targetX` when it is within one step; the bot
   * never passes its target.
   */
  function PursuitStep(x: real, targetX: real, step: real): (r: real)
    ensures step >= 0.0 ==> Abs(r - x) <= step
    ensures step >= 0.0 ==> Min(x, targetX) <= r <= Max(x, targetX)
    ensures Abs(targetX - x) <= step ==> r == targetX
    ensures Abs(targetX - x) > step >= 0.0 ==> Abs(r - x) == step
  {
    var distanceToTarget := targetX - x;
    if Abs(distanceToTarget) > step then x + (if distanceToTarget > 0.0 then step else -step)
    else targetX
  }

  /** How far a wandering bot moves in one frame: half its speed along its direction. */
  function WanderStep(direction: real, speed: real, dt: real): real
  {
    direction * speed * 0.5 * dt
  }

  /** How far a pursuing bot may move in one frame. */
  function Reach(speed: real, dt: real): real
  {
    speed * dt
  }

  /** Positioning error after a selection: zero unless the mistake roll hits, then `(offset - 0.5) * 3`. */
  function ErrorOffset(mistakeRoll: real, offsetRoll: real, mistakeProbability: real): (r: real)
    ensures mistakeRoll >= mistakeProbability ==> r == 0.0
    ensures 0.0 <= offsetRoll < 1.0 ==> -1.5 <= r < 1.5
  {
    if mistakeRoll < mistakeProbability then (offsetRoll - 0.5) * 3.0 else 0.0
  }

  /** The bot's own catch attempt: egg inside 1 < y < 4, aim point nearer than 1, and a winning roll. */
  predicate AttemptsCatch(eggY: real, distanceToTarget: real, roll: real, catchProbability: real)
  {
    1.0 < eggY < 4.0 && Abs(distanceToTarget) < 1.0 && roll < catchProbability
  }

  /** The draws one bot update may consume. */
  datatype BotDraws = BotDraws(
    direction: real,            // new wander direction, (r - 0.5) * 2
    dwell: real,                // new wander time, r * 2
    bombRoll: nat -> real,      // per egg index: the bomb-avoidance roll
    mistake: real,              // the mistake roll on selection
    offset: real,               // the error-offset draw
    catchRoll: real)            // the catch roll while pursuing

  /** The fields one bot update may change, as a value: lane position and the `userData` timers and flags. */
  datatype BotState = BotState(
    x: real, targetEggIndex: int, reactionTimer: real, errorOffset: real,
    moveDirection: real, moveTimer: real, hasCaughtEgg: bool, transferTimer: real)

  /** A bot: the mutable part of its `userData` and its lane position. */
  class Bot {
    const profile: Profile
    var x: real
    var z: real
    var targetEggIndex: int
    var reactionTimer: real
    var errorOffset: real
    var moveDirection: real
    var moveTimer: real
    var hasCaughtEgg: bool
    var transferTimer: real

    ghost predicate Valid()
      reads this`targetEggIndex
    {
      profile == ProfileOf(profile.kind) && targetEggIndex >= -1
    }

    predicate InArena()
      reads this`x
    {
      profile.minX <= x <= profile.maxX
    }

    /** `initializeAI` for one bot, standing at the origin. */
    constructor (kind: BotKind)
      ensures Valid() && profile.kind == kind
      ensures x == 0.0 && z == 0.0 && InArena()
      ensures targetEggIndex == -1 && reactionTimer == 0.0 && errorOffset == 0.0
      ensures moveDirection == 0.0 && moveTimer == 0.0 && !hasCaughtEgg && transferTimer == 0.0
    {
      profile := ProfileOf(kind);
      x, z := 0.0, 0.0;
      targetEggIndex := -1;
      reactionTimer, errorOffset := 0.0, 0.0;
      moveDirection, moveTimer := 0.0, 0.0;
      hasCaughtEgg, transferTimer := false, 0.0;
    }

    function Candidates(eggs: seq<Egg>): seq<nat>
    {
      TargetIndices(PlayerKey(profile.kind), eggs)
    }

    /** The lane position after wandering from `oldX` for `dt` at half speed. */
    ghost predicate Wandered(oldX: real, dt: real)
      reads this`x, this`moveDirection
    {
      WanderLands(oldX, dt, moveDirection, x)
    }

    /** `newX` is where wandering from `oldX` for `dt` in direction `dir` at half speed ends, clamped to the arena. */
    ghost predicate WanderLands(oldX: real, dt: real, dir: real, newX: real)
    {
      newX == Clamp(oldX + WanderStep(dir, profile.baseMoveSpeed, dt), profile.minX, profile.maxX)
    }

    /** The state after one pursuit call toward `egg` from `oldX`. */
    ghost predicate Pursued(egg: Egg, oldX: real, oldTarget: int, oldCaught: bool, oldTransfer: real, dt: real, roll: real)
      reads this`x, this`errorOffset, this`hasCaughtEgg, this`transferTimer, this`targetEggIndex
    {
      PursuitLands(egg, oldX, oldTarget, oldCaught, oldTransfer, dt, roll, x, errorOffset, hasCaughtEgg, transferTimer, targetEggIndex)
    }

    /**
     * The fields after one pursuit call toward `egg`: a successful catch roll
     * inside the height window and reach holds the egg for 1 s and drops the
     * target; otherwise the bot steps toward the aim point and is clamped.
     */
    ghost predicate PursuitLands(egg: Egg, oldX: real, oldTarget: int, oldCaught: bool, oldTransfer: real, dt: real, roll: real,
                                 newX: real, offset: real, caught: bool, transfer: real, target: int)
    {
      var targetX := egg.pos.x + offset;
      if AttemptsCatch(egg.pos.y, targetX - oldX, roll, profile.catchProbability) then
        caught && transfer == 1.0 && target == -1 && newX == oldX
      else
        && newX == Clamp(PursuitStep(oldX, targetX, Reach(profile.baseMoveSpeed, dt)), profile.minX, profile.maxX)
        && caught == oldCaught && transfer == oldTransfer && target == oldTarget
    }

    /** `doRandomMovement`: drift in the wander direction at half speed, then clamp to the arena. */
    method DoRandomMovement(dt: real)
      requires Valid()
      modifies this`x
      ensures Wandered(old(x), dt)
      ensures InArena()
    {
      x := x + WanderStep(moveDirection, profile.baseMoveSpeed, dt);
      x := Max(profile.minX, Min(profile.maxX, x));
    }

    /** `moveTowardEgg`: try the catch roll first; failing that, step toward the aim point and clamp. */
    method MoveTowardEgg(egg: Egg, dt: real, catchRoll: real)
      requires Valid()
      modifies this`x, this`hasCaughtEgg, this`transferTimer, this`targetEggIndex
      ensures Valid()
      ensures Pursued(egg, old(x), old(targetEggIndex), old(hasCaughtEgg), old(transferTimer), dt, catchRoll)
      ensures old(InArena()) ==> InArena()
    {
      var targetX := egg.pos.x + errorOffset;
      var distanceToTarget := targetX - x;
      var moveSpeed := Reach(profile.baseMoveSpeed, dt);
      var catchWindow := egg.pos.y < 4.0 && egg.pos.y > 1.0;
      if catchWindow && Abs(distanceToTarget) < 1.0 && catchRoll < profile.catchProbability {
        hasCaughtEgg := true;
        transferTimer := 1.0;
        targetEggIndex := -1;
        return;
      }
      if Abs(distanceToTarget) > moveSpeed {
        x := x + (if distanceToTarget > 0.0 then moveSpeed else -moveSpeed);
      } else {
        x := targetX;
      }
      x := Max(profile.minX, Min(profile.maxX, x));
    }

    /** `handleEggTransfer`: run the transfer timer down; at 0 drop the held egg and the target. */
    method HandleEggTransfer(dt: real)
      modifies this`transferTimer, this`hasCaughtEgg, this`targetEggIndex
      ensures transferTimer == old(transferTimer) - dt
      ensures transferTimer <= 0.0 ==> !hasCaughtEgg && targetEggIndex == -1
      ensures transferTimer > 0.0 ==> hasCaughtEgg == old(hasCaughtEgg) && targetEggIndex == old(targetEggIndex)
    {
      transferTimer := transferTimer - dt;
      if transferTimer <= 0.0 {
        hasCaughtEgg := false;
        targetEggIndex := -1;
      }
    }

    /** The bot's changing fields as a value. */
    function Snapshot(): BotState
      reads this`x, this`targetEggIndex, this`reactionTimer, this`errorOffset
      reads this`moveDirection, this`moveTimer, this`hasCaughtEgg, this`transferTimer
    {
      BotState(x, targetEggIndex, reactionTimer, errorOffset, moveDirection, moveTimer, hasCaughtEgg, transferTimer)
    }

    /**
     * What one call of `updateAIPlayer` does, from the fields `s` before the
     * call to the fields `t` after it, branch by branch.
     */
    ghost predicate Steps(eggs: seq<Egg>, dt: real, draws: BotDraws, s: BotState, t: BotState)
    {
      // Holding a caught egg: only the transfer timer runs.
      && (s.hasCaughtEgg ==>
        && t.transferTimer == s.transferTimer - dt
        && (t.transferTimer <= 0.0 ==> !t.hasCaughtEgg && t.targetEggIndex == -1)
        && (t.transferTimer > 0.0 ==> t.hasCaughtEgg && t.targetEggIndex == s.targetEggIndex)
        && t.x == s.x && t.moveTimer == s.moveTimer && t.moveDirection == s.moveDirection
        && t.reactionTimer == s.reactionTimer && t.errorOffset == s.errorOffset)
      // Otherwise the wander timer runs and, once expired, is renewed from two draws.
      && (!s.hasCaughtEgg ==>
        if s.moveTimer - dt <= 0.0 then t.moveDirection == (draws.direction - 0.5) * 2.0 && t.moveTimer == draws.dwell * 2.0
        else t.moveDirection == s.moveDirection && t.moveTimer == s.moveTimer - dt)
      // No egg is meant for this bot: it only wanders.
      && (!s.hasCaughtEgg && Candidates(eggs) == [] ==>
        && WanderLands(s.x, dt, t.moveDirection, t.x)
        && t.targetEggIndex == s.targetEggIndex && t.reactionTimer == s.reactionTimer && t.errorOffset == s.errorOffset
        && !t.hasCaughtEgg && t.transferTimer == s.transferTimer)
      // A target is set: the reaction timer runs; the bot wanders until it reaches the reaction time,
      // then pursues the egg at the stored index, or drops a target whose index no longer names an egg.
      && (!s.hasCaughtEgg && Candidates(eggs) != [] && s.targetEggIndex != -1 ==>
        var rt := s.reactionTimer + dt;
        && t.errorOffset == s.errorOffset
        && (rt < profile.reactionTime ==>
              && WanderLands(s.x, dt, t.moveDirection, t.x) && t.reactionTimer == rt && t.targetEggIndex == s.targetEggIndex
              && !t.hasCaughtEgg && t.transferTimer == s.transferTimer)
        && (rt >= profile.reactionTime && s.targetEggIndex >= |eggs| ==>
              && t.targetEggIndex == -1 && t.reactionTimer == 0.0 && t.x == s.x
              && !t.hasCaughtEgg && t.transferTimer == s.transferTimer)
        && (rt >= profile.reactionTime && 0 <= s.targetEggIndex < |eggs| ==>
              && t.reactionTimer == rt
              && PursuitLands(eggs[s.targetEggIndex], s.x, s.targetEggIndex, false, s.transferTimer, dt, draws.catchRoll, t.x, t.errorOffset, t.hasCaughtEgg, t.transferTimer, t.targetEggIndex)))
      // No target yet: select one; a selection resets the reaction timer and rolls the positioning error,
      // no selection means wandering.
      && (!s.hasCaughtEgg && Candidates(eggs) != [] && s.targetEggIndex == -1 ==>
        && ValidCandidates(eggs, Candidates(eggs))
        && IsChoice(eggs, Candidates(eggs), s.x, profile.prioritizeGoldenEggs, profile.avoidBombProbability, draws.bombRoll, t.targetEggIndex)
        && !t.hasCaughtEgg && t.transferTimer == s.transferTimer
        && (t.targetEggIndex == -1 ==> WanderLands(s.x, dt, t.moveDirection, t.x) && t.reactionTimer == s.reactionTimer && t.errorOffset == s.errorOffset)
        && (t.targetEggIndex != -1 ==>
              && t.x == s.x && t.reactionTimer == 0.0
              && t.errorOffset == ErrorOffset(draws.mistake, draws.offset, profile.mistakeProbability)))
    }

    /** `updateAIPlayer`: one decision step of the bot's state machine. */
    method Update(eggs: seq<Egg>, dt: real, draws: BotDraws)
      requires Valid()
      modifies this`x, this`targetEggIndex, this`reactionTimer, this`errorOffset
      modifies this`moveDirection, this`moveTimer, this`hasCaughtEgg, this`transferTimer
      ensures Valid()
      ensures old(InArena()) ==> InArena()
      ensures Steps(eggs, dt, draws, old(Snapshot()), Snapshot())
    {
      if hasCaughtEgg {
        HandleEggTransfer(dt);
        return;
      }
      moveTimer := moveTimer - dt;
      if moveTimer <= 0.0 {
        moveDirection := (draws.direction - 0.5) * 2.0;
        moveTimer := draws.dwell * 2.0;
      }
      Decide(eggs, dt, draws);
    }

    /** The decision part of `updateAIPlayer` for a bot not holding an egg: wander, pursue or select a target. */
    method Decide(eggs: seq<Egg>, dt: real, draws: BotDraws)
      requires Valid() && !hasCaughtEgg
      modifies this`x, this`targetEggIndex, this`reactionTimer, this`errorOffset, this`hasCaughtEgg, this`transferTimer
      ensures Valid()
      ensures old(InArena()) ==> InArena()
      // No egg is meant for this bot: it only wanders.
      ensures Candidates(eggs) == [] ==>
        && Wandered(old(x), dt)
        && targetEggIndex == old(targetEggIndex) && reactionTimer == old(reactionTimer) && errorOffset == old(errorOffset)
        && !hasCaughtEgg && transferTimer == old(transferTimer)
      // A target is set: the reaction timer runs; the bot wanders until it reaches the reaction time,
      // then pursues the egg at the stored index, or drops a target whose index no longer names an egg.
      ensures Candidates(eggs) != [] && old(targetEggIndex) != -1 ==>
        var rt := old(reactionTimer) + dt;
        && errorOffset == old(errorOffset)
        && (rt < profile.reactionTime ==>
              && Wandered(old(x), dt) && reactionTimer == rt && targetEggIndex == old(targetEggIndex)
              && !hasCaughtEgg && transferTimer == old(transferTimer))
        && (rt >= profile.reactionTime && old(targetEggIndex) >= |eggs| ==>
              && targetEggIndex == -1 && reactionTimer == 0.0 && x == old(x)
              && !hasCaughtEgg && transferTimer == old(transferTimer))
        && (rt >= profile.reactionTime && 0 <= old(targetEggIndex) < |eggs| ==>
              && reactionTimer == rt
              && Pursued(eggs[old(targetEggIndex)], old(x), old(targetEggIndex), false, old(transferTimer), dt, draws.catchRoll))
      // No target yet: select one; a selection resets the reaction timer and rolls the positioning error,
      // no selection means wandering.
      ensures Candidates(eggs) != [] && old(targetEggIndex) == -1 ==>
        && ValidCandidates(eggs, Candidates(eggs))
        && IsChoice(eggs, Candidates(eggs), old(x), profile.prioritizeGoldenEggs, profile.avoidBombProbability, draws.bombRoll, targetEggIndex)
        && !hasCaughtEgg && transferTimer == old(transferTimer)
        && (targetEggIndex == -1 ==> Wandered(old(x), dt) && reactionTimer == old(reactionTimer) && errorOffset == old(errorOffset))
        && (targetEggIndex != -1 ==>
              && x == old(x) && reactionTimer == 0.0
              && errorOffset == ErrorOffset(draws.mistake, draws.offset, profile.mistakeProbability))
    {
      var targetEggs := FindTargetEggs(profile.kind, eggs);
      if |targetEggs| == 0 {
        DoRandomMovement(dt);
        return;
      }
      if targetEggIndex != -1 {
        reactionTimer := reactionTimer + dt;
        if reactionTimer >= profile.reactionTime {
          if targetEggIndex < |eggs| {
            MoveTowardEgg(eggs[targetEggIndex], dt, draws.catchRoll);
          } else {
            targetEggIndex := -1;
            reactionTimer := 0.0;
          }
        } else {
          DoRandomMovement(dt);
        }
      } else {
        var bestEggIndex := SelectTarget(eggs, targetEggs, x, profile.prioritizeGoldenEggs, profile.avoidBombProbability, draws.bombRoll);
        if bestEggIndex != -1 {
          targetEggIndex := bestEggIndex;
          reactionTimer := 0.0;
          if draws.mistake < profile.mistakeProbability {
            errorOffset := (draws.offset - 0.5) * 3.0;
          } else {
            errorOffset := 0.0;
          }
        } else {
          DoRandomMovement(dt);
        }
      }
    }
  }
}

=== FILE: entities.dfy ===
/**
 * Passive entity state of the egg-catching arena: eggs, catchers, positions
 * and the per-catcher score table, with the score arithmetic shared by the
 * catch and ground-drop paths.
 */
module Entities {

  datatype Option<T> = None | Some(value: T)

  datatype EggKind = Normal | Golden | Bomb

  /** The four participants; `Human` is the key `player` in the score table. */
  datatype Catcher = Human | Ai1 | Ai2 | Ai3

  datatype Vec = Vec(x: real, y: real, z: real)

  /** An egg in flight: its kind, its position and the catcher it falls towards. */
  datatype Egg = Egg(kind: EggKind, pos: Vec, target: Catcher)

  function Abs(v: real): (r: real)
    ensures r >= 0.0 && (r == v || r == -v)
  {
    if v < 0.0 then -v else v
  }

  function Max(a: real, b: real): (r: real)
    ensures r >= a && r >= b && (r == a || r == b)
  {
    if a >= b then a else b
  }

  function Min(a: real, b: real): (r: real)
    ensures r <= a && r <= b && (r == a || r == b)
  {
    if a <= b then a else b
  }

  /** `Math.max(lo, Math.min(hi, v))`: the arena-bound clamp used for every lane move. */
  function Clamp(v: real, lo: real, hi: real): (r: real)
    ensures lo <= hi ==> lo <= r <= hi
    ensures lo <= v <= hi ==> r == v
    ensures lo <= hi && v < lo ==> r == lo
    ensures lo <= hi && v > hi ==> r == hi
  {
    Max(lo, Min(hi, v))
  }

  /** Squared 3-D Euclidean distance; comparing it with 2.25 replaces `distance < 1.5`. */
  function DistSq(a: Vec, b: Vec): (r: real)
    ensures r >= 0.0
  {
    var dx, dy, dz := a.x - b.x, a.y - b.y, a.z - b.z;
    dx * dx + dy * dy + dz * dz
  }

  /**
   * The authoritative catch test: the egg is strictly closer than 1.5 to its
   * target catcher and strictly inside the height window 1 < y < 4.
   */
  predicate InCatchZone(egg: Vec, catcher: Vec)
  {
    DistSq(egg, catcher) < 2.25 && 1.0 < egg.y < 4.0
  }

  /** An egg in the catch zone is inside the height window and less than 1.5 from its catcher along each ground axis. */
  lemma CatchZoneIsNear(egg: Vec, catcher: Vec)
    requires InCatchZone(egg, catcher)
    ensures 1.0 < egg.y < 4.0
    ensures Abs(egg.x - catcher.x) < 1.5 && Abs(egg.z - catcher.z) < 1.5
  {
    var dx, dy, dz := egg.x - catcher.x, egg.y - catcher.y, egg.z - catcher.z;
    assert DistSq(egg, catcher) == dx * dx + dy * dy + dz * dz;
    assert dx * dx >= 0.0 && dy * dy >= 0.0 && dz * dz >= 0.0;
    SquareBelow(dx);
    SquareBelow(dz);
  }

  /** A square below 2.25 has a root below 1.5. */
  lemma SquareBelow(d: real)
    requires d * d < 2.25
    ensures Abs(d) < 1.5
  {
  }

  /** Transfer value of one egg: golden 3, bomb -2, anything else 1. */
  function Points(kind: EggKind): (p: int)
    ensures kind == Bomb <==> p < 0
    ensures -2 <= p <= 3
  {
    match kind
    case Golden => 3
    case Bomb => -2
    case Normal => 1
  }

  /**
   * Score after a catch: a bomb costs 2 but never drives the score below 0,
   * golden and normal eggs add their points with no floor, so a negative
   * score rises by exactly the egg's value.
   */
  function CatchAward(s: real, kind: EggKind): (r: real)
    ensures s >= 0.0 ==> r >= 0.0 && r == Max(0.0, s + Points(kind) as real)
    ensures kind == Bomb ==> r == Max(0.0, s + Points(kind) as real) && r <= Max(s, 0.0)
    ensures kind != Bomb ==> r == s + Points(kind) as real && r > s
  {
    if kind == Bomb then Max(0.0, s - 2.0)
    else if kind == Golden then s + 3.0
    else s + 1.0
  }

  /** Score after the catcher's egg hits the ground: 1 off for non-bombs, floored at 0. */
  function DropPenalty(s: real, kind: EggKind): (r: real)
    ensures kind == Bomb ==> r == s
    ensures s >= 0.0 ==> 0.0 <= r <= s
    ensures kind != Bomb && s >= 1.0 ==> r == s - 1.0
    ensures kind != Bomb && s < 1.0 ==> r == 0.0
  {
    if kind == Bomb then s else Max(0.0, s - 1.0)
  }

  /** The score table `{ player, ai1, ai2, ai3 }`. */
  datatype Scores = Scores(player: real, ai1: real, ai2: real, ai3: real)
  {
    function Get(c: Catcher): real
    {
      match c
      case Human => player
      case Ai1 => ai1
      case Ai2 => ai2
      case Ai3 => ai3
    }

    /** The table with only `c`'s entry replaced. */
    function Set(c: Catcher, v: real): (s: Scores)
      ensures s.Get(c) == v
      ensures forall d :: d != c ==> s.Get(d) == Get(d)
    {
      match c
      case Human => this.(player := v)
      case Ai1 => this.(ai1 := v)
      case Ai2 => this.(ai2 := v)
      case Ai3 => this.(ai3 := v)
    }

    /** No entry is negative. */
    predicate NonNegative()
    {
      player >= 0.0 && AiNonNegative()
    }

    /** No AI entry is negative. */
    predicate AiNonNegative()
    {
      ai1 >= 0.0 && ai2 >= 0.0 && ai3 >= 0.0
    }
  }

  const ZeroScores := Scores(0.0, 0.0, 0.0, 0.0)

  /** Where each catcher stands; the AI catchers stand on the ground (y = 0). */
  datatype Positions = Positions(human: Vec, ai1: Vec, ai2: Vec, ai3: Vec)
  {
    function At(c: Catcher): Vec
    {
      match c
      case Human => human
      case Ai1 => ai1
      case Ai2 => ai2
      case Ai3 => ai3
    }
  }
}

=== FILE: game.dfy ===
/**
 * The match state of `EggEmergencyGame`: one class whose methods update its
 * fields in place, each tied to a function of the old state from
 * `Physics`, `Rules` or `Jumping`. Every `Math.random()` draw of a frame is
 * a field of `FrameDraws`; the human's collision test is the parameter
 * `touches`.
 */
module Game {
  import opened Entities
  import opened Physics
  import opened Rules
  import Jumping
  import AI

  const PowerUpKinds: seq<PowerUpKind> := [SpeedBoost, EggMagnet, Shield]
  const AiKeys: seq<Catcher> := [Ai1, Ai2, Ai3]

  /** The three parts of a sequence with one element singled out at `|a|`. */
  lemma SpliceAt<T>(a: seq<T>, x: T, b: seq<T>)
    ensures var s := a + [x] + b; s[..|a|] == a && s[|a|] == x && s[|a| + 1..] == b
    ensures a + [] + b == a + b
  {
  }

  /** Replacing the middle element of `a + [x] + b` by `mid`. */
  lemma SpliceReplace<T>(a: seq<T>, x: T, b: seq<T>, mid: seq<T>)
    ensures var s := a + [x] + b; s[..|a|] + mid + s[|a| + 1..] == a + (mid + b)
  {
    SpliceAt(a, x, b);
  }

  /** `powerUpTypes[Math.floor(r * 3)]`: each kind owns a third of [0, 1). */
  function PowerUpKindOf(r: real): (t: PowerUpKind)
    requires 0.0 <= r < 1.0
    ensures t == SpeedBoost <==> r < 1.0 / 3.0
    ensures t == EggMagnet <==> 1.0 / 3.0 <= r < 2.0 / 3.0
    ensures t == Shield <==> 2.0 / 3.0 <= r
  {
    var i := (r * 3.0).Floor;
    PowerUpKinds[i]
  }

  /** Every power-up slot after one frame of `updatePowerUps`. */
  function DecayPowerUps(ps: map<PowerUpKind, PowerUp>, dt: real): (r: map<PowerUpKind, PowerUp>)
    ensures r.Keys == ps.Keys
  {
    map t | t in ps :: DecayPowerUp(ps[t], dt)
  }

  /** The slots after the frame's pickup draws: on a 1% frame and a 10% spawn draw, a pickup of the drawn kind is placed. */
  function PlacePickup(ps: map<PowerUpKind, PowerUp>, draws: FrameDraws): map<PowerUpKind, PowerUp>
    requires draws.InRange() && ps.Keys == {SpeedBoost, EggMagnet, Shield}
  {
    if draws.powerUpFrame < 0.01 && draws.powerUpSpawn < 0.1 then
      var t := PowerUpKindOf(draws.powerUpType);
      ps[t := ps[t].(pickup := Some(Vec((draws.powerUpX - 0.5) * 20.0, 15.0, (draws.powerUpZ - 0.5) * 20.0)))]
    else ps
  }

  /** The slots after `checkPowerUpPickups` with the human at `human`: each pickup nearer than 1 is collected. */
  function CollectNearby(ps: map<PowerUpKind, PowerUp>, human: Vec): map<PowerUpKind, PowerUp>
  {
    map t | t in ps :: if ps[t].pickup.Some? && DistSq(human, ps[t].pickup.value) < 1.0 then Rules.CollectPowerUp(ps[t]) else ps[t]
  }

  /** Every AI ability after one frame of `updateAIAbilities`. */
  function DecayAbilities(abilities: map<Catcher, Ability>, dt: real): map<Catcher, Ability>
  {
    map k | k in abilities :: DecayAbility(abilities[k], dt)
  }

  /** The egg `spawnEgg` drops: its kind and target drawn, 20 units above its target's feet. */
  function SpawnedEgg(kindRoll: real, goldenRoll: real, targetRoll: real, ps: Positions): (e: Egg)
    requires 0.0 <= targetRoll < 1.0
    ensures e.target == SpawnTarget(targetRoll) && e.kind == SpawnKind(kindRoll, goldenRoll)
    ensures e.pos.y == 20.0 && e.pos.x == ps.At(e.target).x && e.pos.z == ps.At(e.target).z
    ensures FateOf(e, ps) == Airborne
  {
    var target := SpawnTarget(targetRoll);
    Egg(SpawnKind(kindRoll, goldenRoll), Vec(ps.At(target).x, 20.0, ps.At(target).z), target)
  }

  /** The egg list the frame's egg loop starts from: the new egg appended when the spawn timer fires. */
  function Pending(eggs: seq<Egg>, spawns: bool, draws: FrameDraws, ps: Positions): (r: seq<Egg>)
    requires draws.InRange()
    ensures |r| == |eggs| + (if spawns then 1 else 0) && r[..|eggs|] == eggs
  {
    if spawns then eggs + [SpawnedEgg(draws.kindRoll, draws.goldenRoll, draws.targetRoll, ps)] else eggs
  }

  /**
   * The spawn timer, egg list and score table after the match part of one
   * frame: when the match runs, the timer advances (and restarts when it
   * fires, appending a new egg) and the egg loop settles every egg.
   */
  function MatchEggs(active: bool, timer: real, eggs: seq<Egg>, scores: Scores, difficulty: real, dt: real, draws: FrameDraws, ps: Positions): (r: (real, seq<Egg>, Scores))
    requires draws.InRange()
    ensures !active ==> r == (timer, eggs, scores)
  {
    if active then
      var spawns := timer + dt >= SpawnInterval(difficulty);
      var settled := ResolveEggs(Pending(eggs, spawns, draws, ps), scores, FallDistance(difficulty, dt), ps);
      (if spawns then 0.0 else timer + dt, settled.0, settled.1)
    else (timer, eggs, scores)
  }

  /** A frame's length in seconds, from two time stamps in milliseconds. */
  function FrameSeconds(last: real, now: real): (dt: real)
    ensures dt * 1000.0 == now - last
    ensures last <= now ==> dt >= 0.0
  {
    (now - last) / 1000.0
  }

  /** Where `positionPlayers` puts the catchers: you west, novice north, intermediate east, expert south. */
  const StartPositions := Positions(Vec(-6.0, 0.0, 0.0), Vec(0.0, 0.0, 6.0), Vec(6.0, 0.0, 0.0), Vec(0.0, 0.0, -6.0))

  /** The keys the match reacts to. */
  datatype Key = Space | KeyE | ArrowLeft | ArrowRight | OtherKey

  /** The draws one frame may consume. */
  datatype FrameDraws = FrameDraws(
    kindRoll: real,       // first egg-kind draw
    goldenRoll: real,     // second egg-kind draw
    targetRoll: real,     // egg target draw
    bot1: AI.BotDraws,
    bot2: AI.BotDraws,
    bot3: AI.BotDraws,
    powerUpFrame: real,   // the 1% per-frame draw
    powerUpSpawn: real,   // the 10% draw inside spawnPowerUp
    powerUpType: real,
    powerUpX: real,
    powerUpZ: real)
  {
    predicate InRange()
    {
      0.0 <= targetRoll < 1.0 && 0.0 <= powerUpType < 1.0
    }
  }

  /** The human's lane after one frame of arrow keys: left first, then right, each clamped on its own side. */
  function HumanStep(x: real, left: bool, right: bool, dt: real): (r: real)
    ensures -14.0 <= x <= 14.0 && dt >= 0.0 ==> -14.0 <= r <= 14.0
    ensures !left && !right ==> r == x
    ensures left && !right && dt >= 0.0 && -14.0 <= x ==> r <= x
    ensures right && !left && dt >= 0.0 && x <= 14.0 ==> r >= x
  {
    var afterLeft := if left then Max(-14.0, x - 8.0 * dt) else x;
    if right then Min(14.0, afterLeft + 8.0 * dt) else afterLeft
  }

  class EggGame {
    var gameActive: bool
    var timerRunning: bool          // the countdown interval is installed
    var timeRemaining: int
    var difficulty: real
    var scores: Scores
    var eggs: seq<Egg>
    var humanX: real
    var humanZ: real
    var body: Jumping.JumpState     // jump flags, vertical speed and the human's height
    var keysLeft: bool
    var keysRight: bool
    var lastUpdateTime: real
    var eggSpawnTimer: real
    var playerEggs: seq<EggKind>
    const maxEggs: nat := 3
    var transferCooldown: real
    const transferCooldownTime: real := 0.5
    var powerUps: map<PowerUpKind, PowerUp>
    var combo: Combo                // combo, maxCombo, comboMultiplier, comboTimeout
    var highScore: real
    var aiAbilities: map<Catcher, Ability>
    var earned: set<Achievement>
    var stats: Stats
    var difficultyScaling: Scaling
    const ai1: AI.Bot
    const ai2: AI.Bot
    const ai3: AI.Bot

    /**
     * The state every operation keeps: three distinct bots with their skill
     * profiles, a buffer of at most `maxEggs`, a combo multiplier matching the
     * counter, complete timer tables, non-negative AI scores, and no egg on
     * the ground still in flight.
     */
    ghost predicate Valid()
      reads this`playerEggs, this`combo, this`powerUps, this`aiAbilities, this`scores, this`eggs
      reads ai1`targetEggIndex, ai2`targetEggIndex, ai3`targetEggIndex
    {
      BotsValid() && StateValid()
    }

    /** Three distinct bots, each with its own skill profile. */
    ghost predicate BotsValid()
      reads ai1`targetEggIndex, ai2`targetEggIndex, ai3`targetEggIndex
    {
      && ai1 != ai2 && ai2 != ai3 && ai1 != ai3
      && ai1.profile.kind == AI.Novice && ai2.profile.kind == AI.Intermediate && ai3.profile.kind == AI.Expert
      && ai1.Valid() && ai2.Valid() && ai3.Valid()
    }

    ghost predicate StateValid()
      reads this`playerEggs, this`combo, this`powerUps, this`aiAbilities, this`scores, this`eggs
    {
      && |playerEggs| <= maxEggs
      && combo.Consistent()
      && powerUps.Keys == {SpeedBoost, EggMagnet, Shield}
      && aiAbilities.Keys == {Ai1, Ai2, Ai3}
      && scores.AiNonNegative()
      && forall e :: e in eggs ==> e.pos.y > 0.0
    }

    /** Where the four catchers stand; the bots stay on the ground. */
    function Stands(): Positions
      reads this`humanX, this`humanZ, this`body, ai1, ai2, ai3
    {
      Positions(Vec(humanX, body.y, humanZ), Vec(ai1.x, 0.0, ai1.z), Vec(ai2.x, 0.0, ai2.z), Vec(ai3.x, 0.0, ai3.z))
    }

    /**
     * The constructor with `init`: a fresh match record, the stored high
     * score and earned achievements, and the three bots of `initializeAI`.
     */
    constructor (storedHighScore: real, storedEarned: set<Achievement>)
      ensures Valid()
      ensures fresh(ai1) && fresh(ai2) && fresh(ai3)
      ensures !gameActive && !timerRunning && timeRemaining == 60 && difficulty == 1.0
      ensures scores == ZeroScores && eggs == [] && playerEggs == []
      ensures humanX == 0.0 && humanZ == 0.0 && body == Jumping.Standing
      ensures !keysLeft && !keysRight && lastUpdateTime == 0.0 && eggSpawnTimer == 0.0
      ensures transferCooldown == 0.0 && combo == NoCombo
      ensures powerUps == map[SpeedBoost := IdlePowerUp, EggMagnet := IdlePowerUp, Shield := IdlePowerUp]
      ensures aiAbilities == map[Ai1 := IdleAbility, Ai2 := IdleAbility, Ai3 := IdleAbility]
      ensures highScore == storedHighScore && earned == storedEarned
      ensures stats == NoStats && difficultyScaling == InitialScaling
    {
      gameActive := false;
      timerRunning := false;
      timeRemaining := 60;
      difficulty := 1.0;
      scores := Scores(0.0, 0.0, 0.0, 0.0);
      eggs := [];
      humanX, humanZ := 0.0, 0.0;
      body := Jumping.JumpState(false, false, false, 0.0, 0.0);
      keysLeft, keysRight := false, false;
      lastUpdateTime := 0.0;
      eggSpawnTimer := 0.0;
      playerEggs := [];
      transferCooldown := 0.0;
      powerUps := map[SpeedBoost := PowerUp(false, 0.0, None), EggMagnet := PowerUp(false, 0.0, None), Shield := PowerUp(false, 0.0, None)];
      combo := Combo(0, 0, 1.0, 0.0);
      highScore := storedHighScore;
      aiAbilities := map[Ai1 := Ability(0.0, 0.0, false), Ai2 := Ability(0.0, 0.0, false), Ai3 := Ability(0.0, 0.0, false)];
      earned := storedEarned;
      stats := Stats(0, 0, 0, 0, 0);
      difficultyScaling := Scaling(1.0, 1.0, 1.0, 1.0);
      ai1 := new AI.Bot(AI.Novice);
      ai2 := new AI.Bot(AI.Intermediate);
      ai3 := new AI.Bot(AI.Expert);
    }

    /** `startGame` with `positionPlayers`: reset scores and clock, install the countdown, place the catchers. */
    method StartGame(now: real)
      requires Valid()
      modifies this`scores, this`timeRemaining, this`difficulty, this`timerRunning, this`gameActive
      modifies this`lastUpdateTime, this`humanX, this`humanZ, this`body
      modifies ai1`x, ai1`z, ai2`x, ai2`z, ai3`x, ai3`z
      ensures Valid()
      ensures scores == ZeroScores && timeRemaining == 60 && difficulty == 1.0
      ensures timerRunning && gameActive && lastUpdateTime == now
      ensures Stands() == StartPositions
      ensures body == old(body).(y := 0.0)
      ensures ai1.InArena() && ai2.InArena() && ai3.InArena()
    {
      ResetMatch();
      PositionPlayers();
      gameActive := true;
      lastUpdateTime := now;
    }

    /** The reset at the top of `startGame`, and the countdown timer started. */
    method ResetMatch()
      requires StateValid()
      modifies this`scores, this`timeRemaining, this`difficulty, this`timerRunning
      ensures StateValid()
      ensures scores == ZeroScores && timeRemaining == 60 && difficulty == 1.0 && timerRunning
    {
      scores := Scores(0.0, 0.0, 0.0, 0.0);
      timeRemaining := 60;
      difficulty := 1.0;
      timerRunning := true;
    }

    /** `positionPlayers`: the four catchers stand on the compass points of the arena, on the ground. */
    method PositionPlayers()
      requires BotsValid()
      modifies this`humanX, this`humanZ, this`body, ai1`x, ai1`z, ai2`x, ai2`z, ai3`x, ai3`z
      ensures Stands() == StartPositions
      ensures body == old(body).(y := 0.0)
    {
      humanX, humanZ := -6.0, 0.0;
      body := body.(y := 0.0);
      ai1.x, ai1.z := 0.0, 6.0;
      ai2.x, ai2.z := 6.0, 0.0;
      ai3.x, ai3.z := 0.0, -6.0;
    }

    /**
     * `endGame`: stop the match and the countdown and rank the four
     * standings, highest score first, ties in entry order.
     */
    method EndGame() returns (ranking: seq<Standing>)
      modifies this`gameActive, this`timerRunning
      ensures !gameActive && !timerRunning
      ensures |ranking| == 4 && multiset(ranking) == multiset(Standings(scores))
      ensures Descending(ranking) && TiesInEntryOrder(ranking)
    {
      gameActive := false;
      timerRunning := false;
      var sc := scores;
      FinalRanking(sc);
      ranking := Ranking(Standings(sc));
    }

    /** One second of the countdown interval, ending the match when the clock reaches 0. */
    method Tick() returns (final: Option<seq<Standing>>)
      modifies this`timeRemaining, this`difficulty, this`gameActive, this`timerRunning
      ensures !old(timerRunning) ==> timeRemaining == old(timeRemaining) && difficulty == old(difficulty)
      ensures !old(timerRunning) ==> gameActive == old(gameActive) && !timerRunning && final.None?
      ensures old(timerRunning) ==> (timeRemaining, difficulty) == CountdownStep(old(timeRemaining), old(difficulty))
      ensures old(timerRunning) && timeRemaining > 0 ==> gameActive == old(gameActive) && timerRunning && final.None?
      ensures old(timerRunning) && timeRemaining <= 0 ==> !gameActive && !timerRunning && final.Some?
      ensures final.Some? ==> multiset(final.value) == multiset(Standings(scores)) && Descending(final.value) && TiesInEntryOrder(final.value)
    {
      final := None;
      if !timerRunning {
        return;
      }
      timeRemaining := timeRemaining - 1;
      if timeRemaining % 15 == 0 && timeRemaining > 0 {
        difficulty := difficulty + 0.5;
      }
      if timeRemaining <= 0 {
        var ranking := EndGame();
        final := Some(ranking);
      }
    }

    /** `spawnEgg`: append one egg of the drawn kind, 20 above its drawn target. */
    method SpawnEgg(kindRoll: real, goldenRoll: real, targetRoll: real)
      requires StateValid() && 0.0 <= targetRoll < 1.0
      modifies this`eggs
      ensures StateValid()
      ensures eggs == old(eggs) + [SpawnedEgg(kindRoll, goldenRoll, targetRoll, Stands())]
      ensures var e := eggs[|old(eggs)|];
        && e.kind == SpawnKind(kindRoll, goldenRoll)
        && e.target == SpawnTarget(targetRoll)
        && e.pos == Vec(Stands().At(e.target).x, 20.0, Stands().At(e.target).z)
    {
      var eggType := if kindRoll < 0.85 then Normal else if goldenRoll < 0.9 then Golden else Bomb;
      var targetPlayerIndex := (targetRoll * 4.0).Floor;
      var target := if targetPlayerIndex == 0 then Human else if targetPlayerIndex == 1 then Ai1
                    else if targetPlayerIndex == 2 then Ai2 else Ai3;
      var targetPosition := Stands().At(target);
      eggs := eggs + [Egg(eggType, Vec(targetPosition.x, 20.0, targetPosition.z), target)];
    }

    /** `catchEgg`: award the catch to `playerType` only. */
    method CatchEgg(egg: Egg, playerType: Catcher)
      modifies this`scores
      ensures scores == old(scores).Set(playerType, CatchAward(old(scores).Get(playerType), egg.kind))
    {
      if egg.kind == Bomb {
        scores := scores.Set(playerType, Max(0.0, scores.Get(playerType) - 2.0));
      } else {
        var points := if egg.kind == Golden then 3.0 else 1.0;
        scores := scores.Set(playerType, scores.Get(playerType) + points);
      }
    }

    /** `checkEggPlayerCollision`: a catch inside the zone scores and removes the egg at `eggIndex`. */
    method CheckEggPlayerCollision(egg: Egg, eggIndex: nat)
      requires eggIndex < |eggs|
      modifies this`eggs, this`scores
      ensures InCatchZone(egg.pos, Stands().At(egg.target)) ==>
        && scores == old(scores).Set(egg.target, CatchAward(old(scores).Get(egg.target), egg.kind))
        && eggs == old(eggs)[..eggIndex] + old(eggs)[eggIndex + 1..]
      ensures !InCatchZone(egg.pos, Stands().At(egg.target)) ==> scores == old(scores) && eggs == old(eggs)
    {
      var targetPlayer := Stands().At(egg.target);
      if DistSq(egg.pos, targetPlayer) < 2.25 && egg.pos.y < 4.0 && egg.pos.y > 1.0 {
        CatchEgg(egg, egg.target);
        eggs := eggs[..eggIndex] + eggs[eggIndex + 1..];
      }
    }

    /**
     * One pass of the `updateEggs` loop body for the egg at `i`: it falls by
     * `(5 + difficulty) * dt`; on the ground it is removed with a drop
     * penalty, otherwise it is moved and then checked for a catch.
     */
    method SettleEgg(i: nat, drop: real, ghost ps: Positions)
      requires i < |eggs| && ps == Stands()
      modifies this`eggs, this`scores
      ensures eggs == old(eggs)[..i] + Survivor(Fall(old(eggs)[i], drop), ps) + old(eggs)[i + 1..]
      ensures scores == Settle(Fall(old(eggs)[i], drop), old(scores), ps)
    {
      var egg := eggs[i];
      egg := egg.(pos := egg.pos.(y := egg.pos.y - drop));
      assert egg == Fall(old(eggs)[i], drop);
      if egg.pos.y <= 0.0 {
        eggs := eggs[..i] + eggs[i + 1..];
        assert Survivor(egg, ps) == [];
        if egg.kind != Bomb {
          scores := scores.Set(egg.target, Max(0.0, scores.Get(egg.target) - 1.0));
        } else {
          assert scores.Set(egg.target, scores.Get(egg.target)) == scores;
        }
      } else {
        eggs := eggs[..i] + [egg] + eggs[i + 1..];
        SpliceAt(old(eggs)[..i], egg, old(eggs)[i + 1..]);
        ghost var mid := eggs;
        CheckEggPlayerCollision(egg, i);
        if FateOf(egg, ps) == Caught {
          assert eggs == mid[..i] + mid[i + 1..];
          assert Survivor(egg, ps) == [];
        } else {
          assert Survivor(egg, ps) == [egg];
        }
      }
    }

    /**
     * `updateEggs`: walk the eggs back to front; each falls, and is removed
     * with a drop penalty on the ground or scored and removed when caught.
     */
    method UpdateEggs(dt: real)
      requires StateValid()
      modifies this`eggs, this`scores
      ensures StateValid()
      ensures (eggs, scores) == ResolveEggs(old(eggs), old(scores), FallDistance(difficulty, dt), Stands())
    {
      ghost var ps := Stands();
      var drop := FallDistance(difficulty, dt);
      ghost var eggs0 := eggs;
      ghost var scores0 := scores;
      var i := |eggs|;
      assert eggs0[i..] == [];
      while i > 0
        invariant 0 <= i <= |eggs0|
        invariant eggs == eggs0[..i] + ResolveEggs(eggs0[i..], scores0, drop, ps).0
        invariant scores == ResolveEggs(eggs0[i..], scores0, drop, ps).1
        invariant ps == Stands()
      {
        i := i - 1;
        ghost var tail := ResolveEggs(eggs0[i + 1..], scores0, drop, ps);
        ResolveFrom(eggs0, i, scores0, drop, ps);
        assert eggs0[..i + 1] == eggs0[..i] + [eggs0[i]];
        assert eggs == eggs0[..i] + [eggs0[i]] + tail.0;
        SettleEgg(i, drop, ps);
        SpliceReplace(eggs0[..i], eggs0[i], tail.0, Survivor(Fall(eggs0[i], drop), ps));
      }
      assert eggs0[..0] == [] && eggs0[0..] == eggs0;
      assert eggs == ResolveEggs(eggs0, scores0, drop, ps).0;
      ResolveKeepsInvariant(eggs0, scores0, drop, ps);
    }

    /** `updateHumanPlayer`: arrow keys move the human 8 per second within [-14, 14]. */
    method UpdateHumanPlayer(dt: real)
      modifies this`humanX
      ensures humanX == HumanStep(old(humanX), keysLeft, keysRight, dt)
    {
      var moveSpeed := 8.0 * dt;
      if keysLeft {
        humanX := humanX - moveSpeed;
        humanX := Max(-14.0, humanX);
      }
      if keysRight {
        humanX := humanX + moveSpeed;
        humanX := Min(14.0, humanX);
      }
    }

    /**
     * The buffer catch of the frame update, each egg examined once: an egg
     * the human touches moves into the buffer while it holds fewer than
     * `maxEggs`.
     */
    method CollectTouchingEggs(touches: Egg -> bool)
      requires StateValid()
      modifies this`eggs, this`playerEggs
      ensures StateValid()
      ensures (eggs, playerEggs) == Collect(old(eggs), old(playerEggs), touches, maxEggs)
    {
      ghost var goal := Collect(eggs, playerEggs, touches, maxEggs);
      var i := 0;
      while i < |eggs|
        invariant 0 <= i <= |eggs|
        invariant eggs[..i] + Collect(eggs[i..], playerEggs, touches, maxEggs).0 == goal.0
        invariant Collect(eggs[i..], playerEggs, touches, maxEggs).1 == goal.1
        decreases |eggs| - i
      {
        var egg := eggs[i];
        ghost var rest := eggs[i + 1..];
        CollectFrom(eggs, i, playerEggs, touches, maxEggs);
        if touches(egg) && |playerEggs| < maxEggs {
          playerEggs := playerEggs + [egg.kind];
          eggs := eggs[..i] + eggs[i + 1..];
          assert eggs[i..] == rest;
        } else {
          assert eggs[..i + 1] == eggs[..i] + [egg];
          i := i + 1;
        }
      }
      assert eggs[..i] == eggs && eggs[i..] == [];
      assert eggs + [] == eggs;
    }

    /**
     * `transferEggs`: refused during the cooldown; otherwise the buffer's
     * points times the combo multiplier go to the human (no floor), the
     * streak grows, the high score follows, and the cooldown starts.
     */
    method TransferEggs()
      requires StateValid()
      modifies this`scores, this`combo, this`highScore, this`playerEggs, this`transferCooldown
      ensures StateValid()
      ensures old(transferCooldown) > 0.0 ==>
        scores == old(scores) && combo == old(combo) && highScore == old(highScore)
        && playerEggs == old(playerEggs) && transferCooldown == old(transferCooldown)
      ensures old(transferCooldown) <= 0.0 ==>
        && scores == old(scores).Set(Human, old(scores).player + TransferGain(old(playerEggs), old(combo).multiplier))
        && combo == ComboOnTransfer(old(combo))
        && highScore == Max(old(highScore), scores.player)
        && playerEggs == [] && transferCooldown == transferCooldownTime
    {
      if transferCooldown > 0.0 {
        return;
      }
      var points := 0;
      var i := 0;
      while i < |playerEggs|
        invariant 0 <= i <= |playerEggs|
        invariant points == BufferValue(playerEggs[..i])
      {
        assert playerEggs[..i + 1][..i] == playerEggs[..i];
        var kind := playerEggs[i];
        if kind == Golden {
          points := points + 3;
        } else if kind == Bomb {
          points := points - 2;
        } else {
          points := points + 1;
        }
        i := i + 1;
      }
      assert playerEggs[..i] == playerEggs;
      var gained := points as real * combo.multiplier;
      assert gained == TransferGain(playerEggs, combo.multiplier);
      scores := scores.Set(Human, scores.Get(Human) + gained);
      var n := combo.combo + 1;
      var best := if combo.maxCombo >= n then combo.maxCombo else n;
      combo := Combo(n, best, 1.0 + (n - 1) as real * 0.2, 3.0);
      assert combo == ComboOnTransfer(old(combo));
      if scores.player > highScore {
        highScore := scores.player;
      }
      playerEggs := [];
      transferCooldown := transferCooldownTime;
    }

    /** `updateCombo`: the streak window runs down and, when it closes, the streak ends. */
    method UpdateCombo(dt: real)
      requires StateValid()
      modifies this`combo
      ensures StateValid()
      ensures combo == ComboDecay(old(combo), dt)
    {
      if combo.timeout > 0.0 {
        combo := combo.(timeout := combo.timeout - dt);
        if combo.timeout <= 0.0 {
          combo := combo.(combo := 0, multiplier := 1.0);
        }
      }
    }

    /** `updatePowerUps`: every active power-up loses dt and switches off when its time is up. */
    method UpdatePowerUps(dt: real)
      requires StateValid()
      modifies this`powerUps
      ensures StateValid()
      ensures powerUps.Keys == old(powerUps).Keys
      ensures forall t :: t in powerUps ==> powerUps[t] == DecayPowerUp(old(powerUps)[t], dt)
      ensures powerUps == DecayPowerUps(old(powerUps), dt)
    {
      for j := 0 to |PowerUpKinds|
        invariant powerUps.Keys == old(powerUps).Keys
        invariant forall t :: t in powerUps ==>
          powerUps[t] == if t in PowerUpKinds[..j] then DecayPowerUp(old(powerUps)[t], dt) else old(powerUps)[t]
      {
        var t := PowerUpKinds[j];
        assert PowerUpKinds[..j + 1] == PowerUpKinds[..j] + [t];
        assert t !in PowerUpKinds[..j];
        var p := powerUps[t];
        if p.active {
          p := p.(duration := p.duration - dt);
          if p.duration <= 0.0 {
            p := p.(active := false);
          }
          powerUps := powerUps[t := p];
        }
      }
      assert PowerUpKinds[..3] == PowerUpKinds;
    }

    /** `collectPowerUp`: start the power-up's 10-second effect and take its pickup out of the arena. */
    method CollectPowerUp(t: PowerUpKind)
      requires StateValid()
      modifies this`powerUps
      ensures StateValid()
      ensures powerUps == old(powerUps)[t := Rules.CollectPowerUp(old(powerUps)[t])]
    {
      powerUps := powerUps[t := powerUps[t].(active := true, duration := 10.0)];
      powerUps := powerUps[t := powerUps[t].(pickup := None)];
    }

    /** `spawnPowerUp`: on a 10% draw, place a pickup of the drawn kind 15 above a random arena point. */
    method SpawnPowerUp(spawnRoll: real, typeRoll: real, xRoll: real, zRoll: real)
      requires StateValid() && 0.0 <= typeRoll < 1.0
      modifies this`powerUps
      ensures StateValid()
      ensures spawnRoll >= 0.1 ==> powerUps == old(powerUps)
      ensures spawnRoll < 0.1 ==>
        var t := PowerUpKindOf(typeRoll);
        powerUps == old(powerUps)[t := old(powerUps)[t].(pickup := Some(Vec((xRoll - 0.5) * 20.0, 15.0, (zRoll - 0.5) * 20.0)))]
    {
      if spawnRoll < 0.1 {
        var t := PowerUpKinds[(typeRoll * 3.0).Floor];
        powerUps := powerUps[t := powerUps[t].(pickup := Some(Vec((xRoll - 0.5) * 20.0, 15.0, (zRoll - 0.5) * 20.0)))];
      }
    }

    /** The pickup check of the frame update: every pickup nearer than 1 to the human is collected. */
    method CheckPowerUpPickups()
      requires StateValid()
      modifies this`powerUps
      ensures StateValid()
      ensures powerUps == CollectNearby(old(powerUps), Stands().human)
    {
      for j := 0 to |PowerUpKinds|
        invariant StateValid()
        invariant forall t :: t in powerUps ==>
          powerUps[t] == if t in PowerUpKinds[..j] && old(powerUps)[t].pickup.Some? && DistSq(Stands().human, old(powerUps)[t].pickup.value) < 1.0
                         then Rules.CollectPowerUp(old(powerUps)[t]) else old(powerUps)[t]
      {
        var t := PowerUpKinds[j];
        assert PowerUpKinds[..j + 1] == PowerUpKinds[..j] + [t];
        assert t !in PowerUpKinds[..j];
        var powerUp := powerUps[t];
        if powerUp.pickup.Some? {
          var distance := DistSq(Vec(humanX, body.y, humanZ), powerUp.pickup.value);
          if distance < 1.0 {
            CollectPowerUp(t);
          }
        }
      }
      assert PowerUpKinds[..3] == PowerUpKinds;
      assert powerUps.Keys == old(powerUps).Keys;
    }

    /** `updateDifficulty`: rescale from the elapsed time and the human's score. */
    method UpdateDifficulty()
      modifies this`difficultyScaling
      ensures difficultyScaling == DifficultyScaling(timeRemaining, scores.player)
    {
      var timeFactor := 1.0 + (60 - timeRemaining) as real / 60.0;
      var scoreFactor := 1.0 + scores.player / 100.0;
      difficultyScaling := Scaling(timeFactor * 1.2, timeFactor * 1.1, timeFactor * 0.8, Max(0.5, 1.0 - (scoreFactor - 1.0) * 0.2));
    }

    /** `updateAIAbilities`: each ability's cooldown and effect timers run down. */
    method UpdateAIAbilities(dt: real)
      requires aiAbilities.Keys == {Ai1, Ai2, Ai3}
      modifies this`aiAbilities
      ensures aiAbilities.Keys == old(aiAbilities).Keys
      ensures forall k :: k in aiAbilities ==> aiAbilities[k] == DecayAbility(old(aiAbilities)[k], dt)
      ensures aiAbilities == DecayAbilities(old(aiAbilities), dt)
    {
      for j := 0 to |AiKeys|
        invariant aiAbilities.Keys == old(aiAbilities).Keys
        invariant forall k :: k in aiAbilities ==>
          aiAbilities[k] == if k in AiKeys[..j] then DecayAbility(old(aiAbilities)[k], dt) else old(aiAbilities)[k]
      {
        var k := AiKeys[j];
        assert AiKeys[..j + 1] == AiKeys[..j] + [k];
        assert k !in AiKeys[..j];
        var ability := aiAbilities[k];
        if ability.cooldown > 0.0 {
          ability := ability.(cooldown := ability.cooldown - dt);
        }
        if ability.duration > 0.0 {
          ability := ability.(duration := ability.duration - dt);
          if ability.duration <= 0.0 {
            ability := ability.(active := false);
          }
        }
        aiAbilities := aiAbilities[k := ability];
      }
      assert AiKeys[..3] == AiKeys;
    }

    /** `activateAIAbility`: refused during the cooldown, otherwise the bot's ability starts. */
    method ActivateAIAbility(aiKey: Catcher)
      requires StateValid() && aiKey != Human
      modifies this`aiAbilities
      ensures StateValid()
      ensures aiAbilities == old(aiAbilities)[aiKey := ActivateAbility(aiKey, old(aiAbilities)[aiKey])]
    {
      var ability := aiAbilities[aiKey];
      if ability.cooldown > 0.0 {
        return;
      }
      match aiKey {
        case Ai1 => ability := Ability(15.0, 5.0, true);
        case Ai2 => ability := Ability(20.0, 8.0, true);
        case Ai3 => ability := Ability(25.0, 10.0, true);
      }
      aiAbilities := aiAbilities[aiKey := ability];
    }

    /** `unlockAchievement`: an achievement is earned once and stays earned. */
    method UnlockAchievement(a: Achievement)
      modifies this`earned
      ensures earned == old(earned) + {a}
    {
      if a in earned {
        return;
      }
      earned := earned + {a};
    }

    /** `checkAchievements`: earn every achievement whose condition holds now. */
    method CheckAchievements()
      modifies this`earned
      ensures earned == Rules.CheckAchievements(old(earned), stats, combo.maxCombo, timeRemaining)
    {
      if stats.eggsCaught == 1 {
        UnlockAchievement(FirstEgg);
      }
      if stats.goldenEggsCaught >= 10 {
        UnlockAchievement(GoldenMaster);
      }
      if combo.maxCombo >= 5 {
        UnlockAchievement(ComboKing);
      }
      if stats.powerUpsCollected >= 3 {
        UnlockAchievement(SpeedDemon);
      }
      if stats.eggsDropped == 0 && timeRemaining <= 0 {
        UnlockAchievement(PerfectGame);
      }
      assert forall a :: a in earned <==> a in Rules.CheckAchievements(old(earned), stats, combo.maxCombo, timeRemaining);
    }

    /** `jump`: a ground jump arms the double jump; an armed mid-air press uses it. */
    method Jump()
      modifies this`body
      ensures body == Jumping.Jump(old(body))
    {
      if !body.isJumping {
        body := body.(isJumping := true, velocityY := Jumping.JumpForce, canDoubleJump := true, hasDoubleJumped := false);
      } else if body.canDoubleJump && !body.hasDoubleJumped {
        body := body.(velocityY := Jumping.JumpForce * 0.8, hasDoubleJumped := true, canDoubleJump := false);
      }
    }

    /** The jump physics of the frame update: gravity while jumping, landing at ground level. */
    method UpdateJumpPhysics()
      modifies this`body
      ensures body == Jumping.JumpPhysics(old(body))
    {
      if body.isJumping {
        body := body.(velocityY := body.velocityY - Jumping.Gravity);
        body := body.(y := body.y + body.velocityY);
        if body.y <= Jumping.GroundLevel {
          body := body.(y := Jumping.GroundLevel, velocityY := 0.0, isJumping := false);
        }
      }
    }

    /**
     * A key press: the arrows set the movement flags while the match runs;
     * Space reaches `jump()`, which decides between jump and double jump;
     * E transfers a non-empty buffer.
     */
    method KeyDown(key: Key)
      requires Valid()
      modifies this`keysLeft, this`keysRight, this`body
      modifies this`scores, this`combo, this`highScore, this`playerEggs, this`transferCooldown
      ensures Valid()
      ensures keysLeft == (old(keysLeft) || (old(gameActive) && key == ArrowLeft))
      ensures keysRight == (old(keysRight) || (old(gameActive) && key == ArrowRight))
      ensures body == if key == Space then Jumping.Jump(old(body)) else old(body)
      ensures key != KeyE || old(playerEggs) == [] || old(transferCooldown) > 0.0 ==>
        && scores == old(scores) && combo == old(combo) && playerEggs == old(playerEggs)
        && highScore == old(highScore) && transferCooldown == old(transferCooldown)
      ensures key == KeyE && old(playerEggs) != [] && old(transferCooldown) <= 0.0 ==>
        && scores == old(scores).Set(Human, old(scores).player + TransferGain(old(playerEggs), old(combo).multiplier))
        && combo == ComboOnTransfer(old(combo)) && highScore == Max(old(highScore), scores.player)
        && playerEggs == [] && transferCooldown == transferCooldownTime
    {
      if gameActive {
        if key == ArrowLeft {
          keysLeft := true;
        } else if key == ArrowRight {
          keysRight := true;
        }
      }
      if key == Space {
        Jump();
      }
      if key == KeyE && |playerEggs| > 0 {
        TransferEggs();
      }
    }

    /** A key release: the arrows clear the movement flags while the match runs. */
    method KeyUp(key: Key)
      modifies this`keysLeft, this`keysRight
      ensures keysLeft == (old(keysLeft) && !(gameActive && key == ArrowLeft))
      ensures keysRight == (old(keysRight) && !(gameActive && key == ArrowRight))
    {
      if gameActive {
        if key == ArrowLeft {
          keysLeft := false;
        } else if key == ArrowRight {
          keysRight := false;
        }
      }
    }

    /**
     * `update`: one animation frame. The first frame only records the time.
     * Otherwise, while the match runs, eggs spawn, fall and are settled, the
     * human and the bots move; then on every frame the jump, the cooldown,
     * the buffer catch, the power-ups, the combo, the difficulty scaling, the
     * AI abilities and the achievements are brought up to date.
     */
    method Update(currentTime: real, draws: FrameDraws, touches: Egg -> bool)
      requires Valid() && draws.InRange()
      modifies this`lastUpdateTime
      modifies this`eggSpawnTimer, this`eggs, this`scores, this`humanX, this`body
      modifies this`transferCooldown, this`playerEggs, this`powerUps, this`combo, this`difficultyScaling
      modifies this`aiAbilities, this`earned
      modifies ai1`x, ai1`targetEggIndex, ai1`reactionTimer, ai1`errorOffset, ai1`moveDirection, ai1`moveTimer, ai1`hasCaughtEgg, ai1`transferTimer
      modifies ai2`x, ai2`targetEggIndex, ai2`reactionTimer, ai2`errorOffset, ai2`moveDirection, ai2`moveTimer, ai2`hasCaughtEgg, ai2`transferTimer
      modifies ai3`x, ai3`targetEggIndex, ai3`reactionTimer, ai3`errorOffset, ai3`moveDirection, ai3`moveTimer, ai3`hasCaughtEgg, ai3`transferTimer
      ensures Valid()
      ensures lastUpdateTime == currentTime
      ensures old(lastUpdateTime) == 0.0 ==> eggs == old(eggs) && scores == old(scores) && playerEggs == old(playerEggs)
      ensures old(lastUpdateTime) == 0.0 ==>
        && humanX == old(humanX) && body == old(body) && combo == old(combo) && powerUps == old(powerUps) && earned == old(earned)
        && ai1.Snapshot() == old(ai1.Snapshot()) && ai2.Snapshot() == old(ai2.Snapshot()) && ai3.Snapshot() == old(ai3.Snapshot())
      ensures old(lastUpdateTime) != 0.0 ==> earned == Rules.CheckAchievements(old(earned), stats, combo.maxCombo, timeRemaining)
      // Every later frame is one `Advance` by the elapsed seconds.
      ensures old(lastUpdateTime) != 0.0 ==> var dt := FrameSeconds(old(lastUpdateTime), currentTime);
        var settled := MatchEggs(old(gameActive), old(eggSpawnTimer), old(eggs), old(scores), old(difficulty), dt, draws, old(Stands()));
        && eggSpawnTimer == settled.0 && scores == settled.2
        && (eggs, playerEggs) == Collect(settled.1, old(playerEggs), touches, maxEggs)
        && (old(gameActive) ==>
              && ai1.Steps(settled.1, dt, draws.bot1, old(ai1.Snapshot()), ai1.Snapshot())
              && ai2.Steps(settled.1, dt, draws.bot2, old(ai2.Snapshot()), ai2.Snapshot())
              && ai3.Steps(settled.1, dt, draws.bot3, old(ai3.Snapshot()), ai3.Snapshot()))
      ensures old(lastUpdateTime) != 0.0 ==> var dt := FrameSeconds(old(lastUpdateTime), currentTime);
        humanX == if old(gameActive) then HumanStep(old(humanX), old(keysLeft), old(keysRight), dt) else old(humanX)
      ensures old(lastUpdateTime) != 0.0 && !old(gameActive) ==>
        ai1.Snapshot() == old(ai1.Snapshot()) && ai2.Snapshot() == old(ai2.Snapshot()) && ai3.Snapshot() == old(ai3.Snapshot())
      ensures old(ai1.InArena()) ==> ai1.InArena()
      ensures old(ai2.InArena()) ==> ai2.InArena()
      ensures old(ai3.InArena()) ==> ai3.InArena()
      ensures old(lastUpdateTime) != 0.0 ==> var dt := FrameSeconds(old(lastUpdateTime), currentTime);
        && body == Jumping.JumpPhysics(old(body))
        && transferCooldown == (if old(transferCooldown) > 0.0 then old(transferCooldown) - dt else old(transferCooldown))
        && powerUps == CollectNearby(PlacePickup(DecayPowerUps(old(powerUps), dt), draws), Stands().human)
        && combo == ComboDecay(old(combo), dt)
        && difficultyScaling == DifficultyScaling(timeRemaining, scores.player)
        && aiAbilities == DecayAbilities(old(aiAbilities), dt)
    {
      if lastUpdateTime == 0.0 {
        lastUpdateTime := currentTime;
        return;
      }
      var deltaTime := FrameSeconds(lastUpdateTime, currentTime);
      lastUpdateTime := currentTime;
      Advance(deltaTime, draws, touches);
    }

    /** The frame's work once `deltaTime` (in seconds) is known. */
    method Advance(deltaTime: real, draws: FrameDraws, touches: Egg -> bool)
      requires Valid() && draws.InRange()
      modifies this`eggSpawnTimer, this`eggs, this`scores, this`humanX, this`body
      modifies this`transferCooldown, this`playerEggs, this`powerUps, this`combo, this`difficultyScaling
      modifies this`aiAbilities, this`earned
      modifies ai1`x, ai1`targetEggIndex, ai1`reactionTimer, ai1`errorOffset, ai1`moveDirection, ai1`moveTimer, ai1`hasCaughtEgg, ai1`transferTimer
      modifies ai2`x, ai2`targetEggIndex, ai2`reactionTimer, ai2`errorOffset, ai2`moveDirection, ai2`moveTimer, ai2`hasCaughtEgg, ai2`transferTimer
      modifies ai3`x, ai3`targetEggIndex, ai3`reactionTimer, ai3`errorOffset, ai3`moveDirection, ai3`moveTimer, ai3`hasCaughtEgg, ai3`transferTimer
      ensures Valid()
      // While the match runs: spawn pacing, the egg loop, the human's lane and the three bots.
      ensures var settled := MatchEggs(old(gameActive), old(eggSpawnTimer), old(eggs), old(scores), old(difficulty), deltaTime, draws, old(Stands()));
        && eggSpawnTimer == settled.0 && scores == settled.2
        && (eggs, playerEggs) == Collect(settled.1, old(playerEggs), touches, maxEggs)
        && (old(gameActive) ==>
              && ai1.Steps(settled.1, deltaTime, draws.bot1, old(ai1.Snapshot()), ai1.Snapshot())
              && ai2.Steps(settled.1, deltaTime, draws.bot2, old(ai2.Snapshot()), ai2.Snapshot())
              && ai3.Steps(settled.1, deltaTime, draws.bot3, old(ai3.Snapshot()), ai3.Snapshot()))
      ensures humanX == if old(gameActive) then HumanStep(old(humanX), old(keysLeft), old(keysRight), deltaTime) else old(humanX)
      ensures !old(gameActive) ==> ai1.Snapshot() == old(ai1.Snapshot()) && ai2.Snapshot() == old(ai2.Snapshot()) && ai3.Snapshot() == old(ai3.Snapshot())
      ensures old(ai1.InArena()) ==> ai1.InArena()
      ensures old(ai2.InArena()) ==> ai2.InArena()
      ensures old(ai3.InArena()) ==> ai3.InArena()
      // On every frame: the jump, the cooldown, the power-ups, the combo, the scaling, the abilities, the achievements.
      ensures body == Jumping.JumpPhysics(old(body))
      ensures transferCooldown == if old(transferCooldown) > 0.0 then old(transferCooldown) - deltaTime else old(transferCooldown)
      ensures powerUps == CollectNearby(PlacePickup(DecayPowerUps(old(powerUps), deltaTime), draws), Stands().human)
      ensures combo == ComboDecay(old(combo), deltaTime)
      ensures difficultyScaling == DifficultyScaling(timeRemaining, scores.player)
      ensures aiAbilities == DecayAbilities(old(aiAbilities), deltaTime)
      ensures earned == Rules.CheckAchievements(old(earned), stats, combo.maxCombo, timeRemaining)
    {
      MatchIfActive(deltaTime, draws);
      UpdateEveryFrame(deltaTime, draws, touches);
    }

    /** The match part of the frame when the match runs; nothing otherwise. */
    method MatchIfActive(deltaTime: real, draws: FrameDraws)
      requires Valid() && draws.InRange()
      modifies this`eggSpawnTimer, this`eggs, this`scores, this`humanX
      modifies ai1`x, ai1`targetEggIndex, ai1`reactionTimer, ai1`errorOffset, ai1`moveDirection, ai1`moveTimer, ai1`hasCaughtEgg, ai1`transferTimer
      modifies ai2`x, ai2`targetEggIndex, ai2`reactionTimer, ai2`errorOffset, ai2`moveDirection, ai2`moveTimer, ai2`hasCaughtEgg, ai2`transferTimer
      modifies ai3`x, ai3`targetEggIndex, ai3`reactionTimer, ai3`errorOffset, ai3`moveDirection, ai3`moveTimer, ai3`hasCaughtEgg, ai3`transferTimer
      ensures Valid()
      ensures (eggSpawnTimer, eggs, scores) == MatchEggs(old(gameActive), old(eggSpawnTimer), old(eggs), old(scores), old(difficulty), deltaTime, draws, old(Stands()))
      ensures humanX == if old(gameActive) then HumanStep(old(humanX), old(keysLeft), old(keysRight), deltaTime) else old(humanX)
      ensures old(gameActive) ==>
        && ai1.Steps(eggs, deltaTime, draws.bot1, old(ai1.Snapshot()), ai1.Snapshot())
        && ai2.Steps(eggs, deltaTime, draws.bot2, old(ai2.Snapshot()), ai2.Snapshot())
        && ai3.Steps(eggs, deltaTime, draws.bot3, old(ai3.Snapshot()), ai3.Snapshot())
      ensures !old(gameActive) ==> ai1.Snapshot() == old(ai1.Snapshot()) && ai2.Snapshot() == old(ai2.Snapshot()) && ai3.Snapshot() == old(ai3.Snapshot())
      ensures old(ai1.InArena()) ==> ai1.InArena()
      ensures old(ai2.InArena()) ==> ai2.InArena()
      ensures old(ai3.InArena()) ==> ai3.InArena()
    {
      if gameActive {
        UpdateMatch(deltaTime, draws);
      }
    }

    /** The part of the frame update that runs whether or not the match is on. */
    method UpdateEveryFrame(deltaTime: real, draws: FrameDraws, touches: Egg -> bool)
      requires StateValid() && draws.InRange()
      modifies this`body, this`transferCooldown, this`eggs, this`playerEggs, this`powerUps, this`combo
      modifies this`difficultyScaling, this`aiAbilities, this`earned
      ensures StateValid()
      ensures scores == old(scores)
      ensures body == Jumping.JumpPhysics(old(body))
      ensures transferCooldown == if old(transferCooldown) > 0.0 then old(transferCooldown) - deltaTime else old(transferCooldown)
      ensures (eggs, playerEggs) == Collect(old(eggs), old(playerEggs), touches, maxEggs)
      ensures powerUps == CollectNearby(PlacePickup(DecayPowerUps(old(powerUps), deltaTime), draws), Stands().human)
      ensures combo == ComboDecay(old(combo), deltaTime)
      ensures difficultyScaling == DifficultyScaling(timeRemaining, scores.player)
      ensures aiAbilities == DecayAbilities(old(aiAbilities), deltaTime)
      ensures earned == Rules.CheckAchievements(old(earned), stats, combo.maxCombo, timeRemaining)
    {
      UpdateHumanState(deltaTime, touches);
      UpdatePickups(deltaTime, draws);
      UpdateTimers(deltaTime);
    }

    /** The match part of the frame update: spawn pacing, the egg loop, the human's lane, the three bots. */
    method UpdateMatch(deltaTime: real, draws: FrameDraws)
      requires Valid() && draws.InRange()
      modifies this`eggSpawnTimer, this`eggs, this`scores, this`humanX
      modifies ai1`x, ai1`targetEggIndex, ai1`reactionTimer, ai1`errorOffset, ai1`moveDirection, ai1`moveTimer, ai1`hasCaughtEgg, ai1`transferTimer
      modifies ai2`x, ai2`targetEggIndex, ai2`reactionTimer, ai2`errorOffset, ai2`moveDirection, ai2`moveTimer, ai2`hasCaughtEgg, ai2`transferTimer
      modifies ai3`x, ai3`targetEggIndex, ai3`reactionTimer, ai3`errorOffset, ai3`moveDirection, ai3`moveTimer, ai3`hasCaughtEgg, ai3`transferTimer
      ensures Valid()
      ensures var spawns := old(eggSpawnTimer) + deltaTime >= SpawnInterval(difficulty);
        && eggSpawnTimer == (if spawns then 0.0 else old(eggSpawnTimer) + deltaTime)
        && (eggs, scores) == ResolveEggs(Pending(old(eggs), spawns, draws, old(Stands())), old(scores), FallDistance(difficulty, deltaTime), old(Stands()))
      ensures humanX == HumanStep(old(humanX), keysLeft, keysRight, deltaTime)
      ensures ai1.Steps(eggs, deltaTime, draws.bot1, old(ai1.Snapshot()), ai1.Snapshot())
      ensures ai2.Steps(eggs, deltaTime, draws.bot2, old(ai2.Snapshot()), ai2.Snapshot())
      ensures ai3.Steps(eggs, deltaTime, draws.bot3, old(ai3.Snapshot()), ai3.Snapshot())
      ensures old(ai1.InArena()) ==> ai1.InArena()
      ensures old(ai2.InArena()) ==> ai2.InArena()
      ensures old(ai3.InArena()) ==> ai3.InArena()
    {
      UpdateFalling(deltaTime, draws);
      UpdateHumanPlayer(deltaTime);
      UpdateAI(deltaTime, draws);
    }

    /** Spawn pacing and the egg loop of the match part. */
    method UpdateFalling(deltaTime: real, draws: FrameDraws)
      requires StateValid() && draws.InRange()
      modifies this`eggSpawnTimer, this`eggs, this`scores
      ensures StateValid()
      ensures var spawns := old(eggSpawnTimer) + deltaTime >= SpawnInterval(difficulty);
        && eggSpawnTimer == (if spawns then 0.0 else old(eggSpawnTimer) + deltaTime)
        && (eggs, scores) == ResolveEggs(Pending(old(eggs), spawns, draws, Stands()), old(scores), FallDistance(difficulty, deltaTime), Stands())
    {
      eggSpawnTimer := eggSpawnTimer + deltaTime;
      var spawnInterval := SpawnInterval(difficulty);
      if eggSpawnTimer >= spawnInterval {
        eggSpawnTimer := 0.0;
        SpawnEgg(draws.kindRoll, draws.goldenRoll, draws.targetRoll);
      }
      UpdateEggs(deltaTime);
    }

    /** `updateAI`: each bot takes its decision step against the current eggs, novice first. */
    method UpdateAI(deltaTime: real, draws: FrameDraws)
      requires BotsValid()
      modifies ai1`x, ai1`targetEggIndex, ai1`reactionTimer, ai1`errorOffset, ai1`moveDirection, ai1`moveTimer, ai1`hasCaughtEgg, ai1`transferTimer
      modifies ai2`x, ai2`targetEggIndex, ai2`reactionTimer, ai2`errorOffset, ai2`moveDirection, ai2`moveTimer, ai2`hasCaughtEgg, ai2`transferTimer
      modifies ai3`x, ai3`targetEggIndex, ai3`reactionTimer, ai3`errorOffset, ai3`moveDirection, ai3`moveTimer, ai3`hasCaughtEgg, ai3`transferTimer
      ensures BotsValid()
      ensures old(ai1.InArena()) ==> ai1.InArena()
      ensures old(ai2.InArena()) ==> ai2.InArena()
      ensures old(ai3.InArena()) ==> ai3.InArena()
      ensures ai1.Steps(eggs, deltaTime, draws.bot1, old(ai1.Snapshot()), ai1.Snapshot())
      ensures ai2.Steps(eggs, deltaTime, draws.bot2, old(ai2.Snapshot()), ai2.Snapshot())
      ensures ai3.Steps(eggs, deltaTime, draws.bot3, old(ai3.Snapshot()), ai3.Snapshot())
    {
      ai1.Update(eggs, deltaTime, draws.bot1);
      ai2.Update(eggs, deltaTime, draws.bot2);
      ai3.Update(eggs, deltaTime, draws.bot3);
    }

    /** The human part of the frame update: jump physics, the transfer cooldown, the buffer catch, the power-up timers, the combo window. */
    method UpdateHumanState(deltaTime: real, touches: Egg -> bool)
      requires StateValid()
      modifies this`body, this`transferCooldown, this`eggs, this`playerEggs, this`powerUps, this`combo
      ensures StateValid()
      ensures body == Jumping.JumpPhysics(old(body))
      ensures transferCooldown == if old(transferCooldown) > 0.0 then old(transferCooldown) - deltaTime else old(transferCooldown)
      ensures combo == ComboDecay(old(combo), deltaTime)
      ensures (eggs, playerEggs) == Collect(old(eggs), old(playerEggs), touches, maxEggs)
      ensures powerUps == DecayPowerUps(old(powerUps), deltaTime)
    {
      UpdateJumpPhysics();
      if transferCooldown > 0.0 {
        transferCooldown := transferCooldown - deltaTime;
      }
      CollectTouchingEggs(touches);
      UpdatePowerUps(deltaTime);
      UpdateCombo(deltaTime);
    }

    /** The pickup part of the frame update: a 1% draw may spawn a pickup, then nearby pickups are collected. */
    method UpdatePickups(deltaTime: real, draws: FrameDraws)
      requires StateValid() && draws.InRange()
      modifies this`powerUps
      ensures StateValid()
      ensures powerUps == CollectNearby(PlacePickup(old(powerUps), draws), Stands().human)
    {
      ghost var placed := PlacePickup(powerUps, draws);
      if draws.powerUpFrame < 0.01 {
        SpawnPowerUp(draws.powerUpSpawn, draws.powerUpType, draws.powerUpX, draws.powerUpZ);
      }
      assert powerUps == placed;
      CheckPowerUpPickups();
    }

    /** The bookkeeping part of the frame update: difficulty scaling, AI ability timers, achievements. */
    method UpdateTimers(deltaTime: real)
      requires StateValid()
      modifies this`difficultyScaling, this`aiAbilities, this`earned
      ensures StateValid()
      ensures difficultyScaling == DifficultyScaling(timeRemaining, scores.player)
      ensures aiAbilities == DecayAbilities(old(aiAbilities), deltaTime)
      ensures earned == Rules.CheckAchievements(old(earned), stats, combo.maxCombo, timeRemaining)
    {
      UpdateDifficulty();
      UpdateAIAbilities(deltaTime);
      CheckAchievements();
    }
  }

}

=== FILE: jumping.dfy ===
/**
 * The human's jump and double-jump flags, the per-frame jump physics, and
 * the Space-key listener that triggers a jump.
 */
module Jumping {

  const JumpForce: real := 0.5
  const Gravity: real := 0.02
  const GroundLevel: real := 0.0

  /** The human's vertical state: the three jump flags, vertical speed and height. */
  datatype JumpState = JumpState(isJumping: bool, canDoubleJump: bool, hasDoubleJumped: bool, velocityY: real, y: real)

  const Standing := JumpState(false, false, false, 0.0, GroundLevel)

  /**
   * `jump()`: from the ground, jump with full force and arm the double jump;
   * in the air, if armed and unused, jump again with 0.8 of the force and
   * disarm; otherwise nothing happens.
   */
  function Jump(j: JumpState): (r: JumpState)
    ensures r.y == j.y
    ensures !j.isJumping ==> r.isJumping && r.velocityY == JumpForce && r.canDoubleJump && !r.hasDoubleJumped
    ensures j.isJumping && j.canDoubleJump && !j.hasDoubleJumped ==>
      r.isJumping && r.velocityY == 0.4 && r.hasDoubleJumped && !r.canDoubleJump
    ensures j.isJumping && !(j.canDoubleJump && !j.hasDoubleJumped) ==> r == j
    ensures r.hasDoubleJumped && !j.hasDoubleJumped ==> j.isJumping
  {
    if !j.isJumping then
      j.(isJumping := true, velocityY := JumpForce, canDoubleJump := true, hasDoubleJumped := false)
    else if j.canDoubleJump && !j.hasDoubleJumped then
      j.(velocityY := JumpForce * 0.8, hasDoubleJumped := true, canDoubleJump := false)
    else j
  }

  /** Per-frame jump physics: gravity, then a landing that stops the jump at ground level. */
  function JumpPhysics(j: JumpState): (r: JumpState)
    ensures !j.isJumping ==> r == j
    ensures r.canDoubleJump == j.canDoubleJump && r.hasDoubleJumped == j.hasDoubleJumped
    ensures j.isJumping ==> r.y >= GroundLevel
    ensures j.y >= GroundLevel ==> r.y >= GroundLevel
    ensures j.isJumping && !r.isJumping ==> r.y == GroundLevel && r.velocityY == 0.0
  {
    if j.isJumping then
      var v := j.velocityY - Gravity;
      var y := j.y + v;
      if y <= GroundLevel then j.(y := GroundLevel, velocityY := 0.0, isJumping := false)
      else j.(velocityY := v, y := y)
    else j
  }

  /** The Space listener as written: it calls `jump()` only while not jumping. */
  function SpaceAsWritten(j: JumpState): (r: JumpState)
    ensures j.isJumping ==> r == j
    ensures r.hasDoubleJumped ==> j.hasDoubleJumped
  {
    if !j.isJumping then Jump(j) else j
  }

  /** The Space listener as intended: every press reaches `jump()`, which decides. */
  function SpaceIntended(j: JumpState): (r: JumpState)
    ensures j.isJumping && j.canDoubleJump && !j.hasDoubleJumped ==> r.hasDoubleJumped && r.velocityY == 0.4
  {
    Jump(j)
  }

  datatype Input = SpaceKey | Frame

  function RunAsWritten(j: JumpState, inputs: seq<Input>): JumpState
    decreases |inputs|
  {
    if inputs == [] then j
    else
      var next := if inputs[0] == SpaceKey then SpaceAsWritten(j) else JumpPhysics(j);
      RunAsWritten(next, inputs[1..])
  }

  /** With the listener as written no sequence of presses and frames ever performs a double jump. */
  lemma {:induction false} AsWrittenNeverDoubleJumps(j: JumpState, inputs: seq<Input>)
    requires !j.hasDoubleJumped
    ensures !RunAsWritten(j, inputs).hasDoubleJumped
    decreases |inputs|
  {
    if inputs != [] {
      var next := if inputs[0] == SpaceKey then SpaceAsWritten(j) else JumpPhysics(j);
      assert !next.hasDoubleJumped;
      AsWrittenNeverDoubleJumps(next, inputs[1..]);
    }
  }

  /**
   * With the intended listener, a second press one frame after jumping from
   * the ground performs the double jump.
   */
  lemma IntendedDoubleJumps(j: JumpState)
    requires !j.isJumping && j.y == GroundLevel
    ensures var air := JumpPhysics(SpaceIntended(j));
      air.isJumping && SpaceIntended(air).hasDoubleJumped && SpaceIntended(air).velocityY == 0.4
  {
  }
}

=== FILE: physics.dfy ===
/**
 * Egg physics and catch resolution as values: what one pass of the egg loop
 * does to the egg list and the score table, and how the human's buffer
 * takes eggs out of the list.
 */
module Physics {
  import opened Entities

  /** How far an egg falls in one frame: `(5 + difficulty) * deltaTime`. */
  function FallDistance(difficulty: real, dt: real): real
  {
    (5.0 + difficulty) * dt
  }

  /** The egg after falling by `drop` (one frame's `FallDistance`). */
  function Fall(e: Egg, drop: real): (f: Egg)
    ensures f.kind == e.kind && f.target == e.target
    ensures f.pos.x == e.pos.x && f.pos.z == e.pos.z && f.pos.y == e.pos.y - drop
  {
    e.(pos := e.pos.(y := e.pos.y - drop))
  }

  /** What happens to an egg that has just fallen. */
  datatype Fate = Dropped | Caught | Airborne

  function FateOf(e: Egg, ps: Positions): (f: Fate)
    ensures f == Dropped <==> e.pos.y <= 0.0
    ensures f == Caught ==> 1.0 < e.pos.y < 4.0 && Abs(e.pos.x - ps.At(e.target).x) < 1.5
    ensures e.pos.y >= 4.0 ==> f == Airborne
  {
    if e.pos.y <= 0.0 then Dropped
    else if InCatchZone(e.pos, ps.At(e.target)) then Caught
    else Airborne
  }

  /**
   * The score change one fallen egg causes: a drop penalises its target
   * (bombs excepted), a catch awards its target, an airborne egg changes
   * nothing. Only the egg's target can change.
   */
  function Settle(e: Egg, sc: Scores, ps: Positions): (r: Scores)
    ensures forall c :: c != e.target ==> r.Get(c) == sc.Get(c)
    ensures FateOf(e, ps) == Airborne ==> r == sc
    ensures FateOf(e, ps) == Dropped && e.kind == Bomb ==> r == sc
    ensures FateOf(e, ps) == Dropped ==> r.Get(e.target) == DropPenalty(sc.Get(e.target), e.kind)
    ensures FateOf(e, ps) == Caught ==> r.Get(e.target) == CatchAward(sc.Get(e.target), e.kind)
    ensures sc.NonNegative() ==> r.NonNegative()
    ensures sc.AiNonNegative() ==> r.AiNonNegative()
  {
    var t := e.target;
    match FateOf(e, ps)
    case Dropped => sc.Set(t, DropPenalty(sc.Get(t), e.kind))
    case Caught => sc.Set(t, CatchAward(sc.Get(t), e.kind))
    case Airborne => sc
  }

  /**
   * The egg loop on a single egg: a non-bomb that reaches the ground costs
   * its target 1, floored at 0, and removes the egg; every other catcher
   * keeps its score.
   */
  lemma DroppedEggCostsItsTarget(egg: Egg, sc: Scores, drop: real, ps: Positions)
    requires egg.kind != Bomb && egg.pos.y - drop <= 0.0
    ensures var r := ResolveEggs([egg], sc, drop, ps);
      && r.0 == []
      && r.1.Get(egg.target) == Max(0.0, sc.Get(egg.target) - 1.0)
      && forall c :: c != egg.target ==> r.1.Get(c) == sc.Get(c)
  {
    assert [egg][1..] == [];
  }

  /** The fallen egg, if it is still in flight. */
  function Survivor(e: Egg, ps: Positions): seq<Egg>
  {
    if FateOf(e, ps) == Airborne then [e] else []
  }

  /**
   * One pass of the egg loop over `eggs`, visiting them back to front as the
   * source does: the tail is resolved first, then the head egg. Returns the
   * eggs still in flight (moved) and the new score table.
   */
  function ResolveEggs(eggs: seq<Egg>, sc: Scores, drop: real, ps: Positions): (r: (seq<Egg>, Scores))
    ensures |r.0| <= |eggs|
    decreases |eggs|
  {
    if eggs == [] then ([], sc)
    else
      var tail := ResolveEggs(eggs[1..], sc, drop, ps);
      var e := Fall(eggs[0], drop);
      (Survivor(e, ps) + tail.0, Settle(e, tail.1, ps))
  }

  /**
   * After a pass every egg left is above the ground and outside its target's
   * catch zone, and scores that were not negative (all, or the AI ones) stay so.
   */
  lemma {:induction false} ResolveKeepsInvariant(eggs: seq<Egg>, sc: Scores, drop: real, ps: Positions)
    ensures var r := ResolveEggs(eggs, sc, drop, ps);
      && (forall e :: e in r.0 ==> e.pos.y > 0.0 && !InCatchZone(e.pos, ps.At(e.target)))
      && (sc.NonNegative() ==> r.1.NonNegative())
      && (sc.AiNonNegative() ==> r.1.AiNonNegative())
    decreases |eggs|
  {
    if eggs != [] {
      ResolveKeepsInvariant(eggs[1..], sc, drop, ps);
    }
  }

  /** Resolving from index `i` is the egg at `i` settled after everything behind it. */
  lemma ResolveFrom(eggs: seq<Egg>, i: nat, sc: Scores, drop: real, ps: Positions)
    requires i < |eggs|
    ensures var tail := ResolveEggs(eggs[i + 1..], sc, drop, ps);
      var e := Fall(eggs[i], drop);
      ResolveEggs(eggs[i..], sc, drop, ps) == (Survivor(e, ps) + tail.0, Settle(e, tail.1, ps))
  {
    assert eggs[i..][0] == eggs[i] && eggs[i..][1..] == eggs[i + 1..];
  }

  /** Front-to-back reference: the fallen eggs that neither hit the ground nor were caught. */
  function StillFalling(eggs: seq<Egg>, drop: real, ps: Positions): seq<Egg>
  {
    if eggs == [] then []
    else
      var e := Fall(eggs[0], drop);
      (if FateOf(e, ps) == Airborne then [e] else []) + StillFalling(eggs[1..], drop, ps)
  }

  /** Removing eggs while walking backwards skips none: the kept list is the plain filter. */
  lemma {:induction false} ResolveKeepsExactlyTheFalling(eggs: seq<Egg>, sc: Scores, drop: real, ps: Positions)
    ensures ResolveEggs(eggs, sc, drop, ps).0 == StillFalling(eggs, drop, ps)
    decreases |eggs|
  {
    if eggs != [] {
      ResolveKeepsExactlyTheFalling(eggs[1..], sc, drop, ps);
    }
  }

  /** A catcher that no egg in the list targets keeps its score. */
  lemma {:induction false} ResolveTouchesOnlyTargets(eggs: seq<Egg>, sc: Scores, drop: real, ps: Positions, c: Catcher)
    requires forall i :: 0 <= i < |eggs| ==> eggs[i].target != c
    ensures ResolveEggs(eggs, sc, drop, ps).1.Get(c) == sc.Get(c)
    decreases |eggs|
  {
    if eggs != [] {
      ResolveTouchesOnlyTargets(eggs[1..], sc, drop, ps, c);
    }
  }

  /** Dropped bombs are neutral: a list of bombs that all hit the ground leaves every score alone. */
  lemma {:induction false} DroppedBombsAreNeutral(eggs: seq<Egg>, sc: Scores, drop: real, ps: Positions)
    requires forall i :: 0 <= i < |eggs| ==> eggs[i].kind == Bomb && eggs[i].pos.y - drop <= 0.0
    ensures ResolveEggs(eggs, sc, drop, ps) == ([], sc)
    decreases |eggs|
  {
    if eggs != [] {
      DroppedBombsAreNeutral(eggs[1..], sc, drop, ps);
    }
  }

  // ---------------------------------------------------------------------
  // The human's egg buffer: eggs that touch the human go into a buffer of
  // at most `cap` (3) eggs and leave the egg list.
  // ---------------------------------------------------------------------

  /**
   * Buffer collection as intended: each egg is examined once, in order; a
   * touching egg is moved into the buffer while there is room.
   */
  function Collect(eggs: seq<Egg>, buffer: seq<EggKind>, touches: Egg -> bool, cap: nat): (r: (seq<Egg>, seq<EggKind>))
    ensures |buffer| <= cap ==> |r.1| <= cap
    ensures forall e :: e in r.0 ==> e in eggs
    decreases |eggs|
  {
    if eggs == [] then ([], buffer)
    else if touches(eggs[0]) && |buffer| < cap then Collect(eggs[1..], buffer + [eggs[0].kind], touches, cap)
    else
      var rest := Collect(eggs[1..], buffer, touches, cap);
      ([eggs[0]] + rest.0, rest.1)
  }

  /**
   * Collection only appends to the buffer, loses no egg (each ends up in the
   * list or the buffer), and stops early only when the buffer is full: every
   * egg left in the list then does not touch the human.
   */
  lemma {:induction false} CollectConserves(eggs: seq<Egg>, buffer: seq<EggKind>, touches: Egg -> bool, cap: nat)
    ensures var r := Collect(eggs, buffer, touches, cap);
      && buffer <= r.1
      && |r.0| + |r.1| == |eggs| + |buffer|
      && (|r.1| >= cap || forall e :: e in r.0 ==> !touches(e))
    decreases |eggs|
  {
    if eggs != [] {
      if touches(eggs[0]) && |buffer| < cap {
        CollectConserves(eggs[1..], buffer + [eggs[0].kind], touches, cap);
      } else {
        CollectConserves(eggs[1..], buffer, touches, cap);
      }
    }
  }

  /** How many eggs of `s` touch the human. */
  function CountTouching(s: seq<Egg>, touches: Egg -> bool): (n: nat)
    ensures n <= |s|
    decreases |s|
  {
    if s == [] then 0 else (if touches(s[0]) then 1 else 0) + CountTouching(s[1..], touches)
  }

  /**
   * Reference for which eggs a buffer with `room` free places takes: egg i
   * is taken exactly when it touches the human and fewer than `room` eggs
   * before it do, that is, the first `room` touching eggs in list order.
   */
  function TakenMask(eggs: seq<Egg>, touches: Egg -> bool, room: int): (m: seq<bool>)
    ensures |m| == |eggs|
  {
    seq(|eggs|, i requires 0 <= i < |eggs| => touches(eggs[i]) && CountTouching(eggs[..i], touches) < room)
  }

  /** The eggs whose mask entry is `want`, in their original order. */
  function Select(eggs: seq<Egg>, mask: seq<bool>, want: bool): (r: seq<Egg>)
    requires |mask| == |eggs|
    ensures |r| <= |eggs|
    decreases |eggs|
  {
    if eggs == [] then []
    else if mask[0] == want then [eggs[0]] + Select(eggs[1..], mask[1..], want)
    else Select(eggs[1..], mask[1..], want)
  }

  /** Every selected egg sits at an index whose mask entry is `want`. */
  lemma {:induction false} SelectFrom(eggs: seq<Egg>, mask: seq<bool>, want: bool)
    requires |mask| == |eggs|
    ensures forall e :: e in Select(eggs, mask, want) ==> exists i :: 0 <= i < |eggs| && eggs[i] == e && mask[i] == want
    decreases |eggs|
  {
    if eggs != [] {
      SelectFrom(eggs[1..], mask[1..], want);
      forall e | e in Select(eggs, mask, want) ensures exists i :: 0 <= i < |eggs| && eggs[i] == e && mask[i] == want {
        if e in Select(eggs[1..], mask[1..], want) {
          var j :| 0 <= j < |eggs| - 1 && eggs[1..][j] == e && mask[1..][j] == want;
          assert eggs[j + 1] == e && mask[j + 1] == want;
        } else {
          assert eggs[0] == e && mask[0] == want;
        }
      }
    }
  }

  /** The kinds of a list of eggs, in order. */
  function KindsOf(eggs: seq<Egg>): (ks: seq<EggKind>)
    ensures |ks| == |eggs|
    decreases |eggs|
  {
    if eggs == [] then [] else [eggs[0].kind] + KindsOf(eggs[1..])
  }

  /** The mask of a non-empty list: the head's decision, then the tail's with the room it leaves. */
  lemma TakenMaskCons(eggs: seq<Egg>, touches: Egg -> bool, room: int)
    requires eggs != []
    ensures TakenMask(eggs, touches, room) ==
      [touches(eggs[0]) && 0 < room] + TakenMask(eggs[1..], touches, if touches(eggs[0]) then room - 1 else room)
  {
    var m := TakenMask(eggs, touches, room);
    var room' := if touches(eggs[0]) then room - 1 else room;
    var m' := TakenMask(eggs[1..], touches, room');
    assert eggs[..0] == [];
    forall i | 1 <= i < |eggs| ensures m[i] == m'[i - 1] {
      var pre := eggs[..i];
      assert pre[0] == eggs[0] && pre[1..] == eggs[1..][..i - 1];
    }
    assert m == [m[0]] + m';
  }

  /** With no room left, nothing is taken, however little room is left. */
  lemma NoRoomTakesNothing(eggs: seq<Egg>, touches: Egg -> bool, room: int, room': int)
    requires room <= 0 && room' <= 0
    ensures TakenMask(eggs, touches, room) == TakenMask(eggs, touches, room')
  {
  }

  /** Every egg the mask takes touches the human. */
  lemma TakenEggsTouch(eggs: seq<Egg>, touches: Egg -> bool, room: int)
    ensures forall e :: e in Select(eggs, TakenMask(eggs, touches, room), true) ==> touches(e)
  {
    var mask := TakenMask(eggs, touches, room);
    SelectFrom(eggs, mask, true);
    forall e | e in Select(eggs, mask, true) ensures touches(e) {
      var i :| 0 <= i < |eggs| && eggs[i] == e && mask[i] == true;
    }
  }

  /**
   * The buffer pass takes exactly the first eggs that touch the human, as
   * many as the buffer has room for: the buffer gains their kinds in list
   * order, and the list keeps every other egg, in order.
   */
  lemma {:induction false} CollectTakesTheFirstTouching(eggs: seq<Egg>, buffer: seq<EggKind>, touches: Egg -> bool, cap: nat)
    ensures var r := Collect(eggs, buffer, touches, cap);
      var mask := TakenMask(eggs, touches, cap - |buffer|);
      && r.0 == Select(eggs, mask, false)
      && r.1 == buffer + KindsOf(Select(eggs, mask, true))
    decreases |eggs|
  {
    if eggs == [] {
      assert buffer + [] == buffer;
    } else {
      var mask := TakenMask(eggs, touches, cap - |buffer|);
      TakenMaskCons(eggs, touches, cap - |buffer|);
      if touches(eggs[0]) && |buffer| < cap {
        CollectTakesTheFirstTouching(eggs[1..], buffer + [eggs[0].kind], touches, cap);
        assert mask[1..] == TakenMask(eggs[1..], touches, cap - |buffer + [eggs[0].kind]|);
        TakeHead(eggs, buffer, touches, cap, mask);
      } else {
        CollectTakesTheFirstTouching(eggs[1..], buffer, touches, cap);
        if touches(eggs[0]) {
          NoRoomTakesNothing(eggs[1..], touches, cap - |buffer| - 1, cap - |buffer|);
        }
        assert mask[1..] == TakenMask(eggs[1..], touches, cap - |buffer|);
      }
    }
  }

  /** Step of the lemma above when the head is taken, for any mask marking the head. */
  lemma TakeHead(eggs: seq<Egg>, buffer: seq<EggKind>, touches: Egg -> bool, cap: nat, mask: seq<bool>)
    requires eggs != [] && touches(eggs[0]) && |buffer| < cap
    requires |mask| == |eggs| && mask[0]
    requires var r := Collect(eggs[1..], buffer + [eggs[0].kind], touches, cap);
      && r.0 == Select(eggs[1..], mask[1..], false)
      && r.1 == buffer + [eggs[0].kind] + KindsOf(Select(eggs[1..], mask[1..], true))
    ensures var r := Collect(eggs, buffer, touches, cap);
      && r.0 == Select(eggs, mask, false)
      && r.1 == buffer + KindsOf(Select(eggs, mask, true))
  {
    SelectTakenHead(eggs, mask);
    var kinds := KindsOf(Select(eggs[1..], mask[1..], true));
    assert buffer + [eggs[0].kind] + kinds == buffer + ([eggs[0].kind] + kinds);
  }

  /** Selecting from a list whose head is marked. */
  lemma SelectTakenHead(eggs: seq<Egg>, mask: seq<bool>)
    requires eggs != [] && |mask| == |eggs| && mask[0]
    ensures Select(eggs, mask, false) == Select(eggs[1..], mask[1..], false)
    ensures KindsOf(Select(eggs, mask, true)) == [eggs[0].kind] + KindsOf(Select(eggs[1..], mask[1..], true))
  {
    var taken := Select(eggs[1..], mask[1..], true);
    assert ([eggs[0]] + taken)[1..] == taken;
  }

  /** Step of the lemma above when the head stays in the list. */
  lemma KeepHead(eggs: seq<Egg>, buffer: seq<EggKind>, touches: Egg -> bool, cap: nat)
    requires eggs != [] && !(touches(eggs[0]) && |buffer| < cap)
    requires var r := Collect(eggs[1..], buffer, touches, cap);
      var mask := TakenMask(eggs[1..], touches, cap - |buffer|);
      && r.0 == Select(eggs[1..], mask, false)
      && r.1 == buffer + KindsOf(Select(eggs[1..], mask, true))
    ensures var r := Collect(eggs, buffer, touches, cap);
      var mask := TakenMask(eggs, touches, cap - |buffer|);
      && r.0 == Select(eggs, mask, false)
      && r.1 == buffer + KindsOf(Select(eggs, mask, true))
  {
    TakenMaskCons(eggs, touches, cap - |buffer|);
    if touches(eggs[0]) {
      NoRoomTakesNothing(eggs[1..], touches, cap - |buffer| - 1, cap - |buffer|);
    }
  }

  /** Collecting from index `i` first decides about the egg at `i`. */
  lemma CollectFrom(eggs: seq<Egg>, i: nat, buffer: seq<EggKind>, touches: Egg -> bool, cap: nat)
    requires i < |eggs|
    ensures var rest := Collect(eggs[i + 1..], buffer, touches, cap);
      Collect(eggs[i..], buffer, touches, cap) ==
        if touches(eggs[i]) && |buffer| < cap then Collect(eggs[i + 1..], buffer + [eggs[i].kind], touches, cap)
        else ([eggs[i]] + rest.0, rest.1)
  {
    assert eggs[i..][0] == eggs[i] && eggs[i..][1..] == eggs[i + 1..];
  }

  /**
   * Buffer collection as written at game.js:910-930: `forEach` walks the
   * indices 0 .. n-1 of the original length and `splice`s the caught egg
   * out, so the egg that slides into the freed index is never examined.
   */
  function ForEachCollect(eggs: seq<Egg>, buffer: seq<EggKind>, touches: Egg -> bool, cap: nat, k: nat, n: nat): (r: (seq<Egg>, seq<EggKind>))
    ensures |buffer| <= cap ==> |r.1| <= cap
    ensures |r.0| + |r.1| == |eggs| + |buffer|
    decreases n - k
  {
    if k >= n then (eggs, buffer)
    else if k < |eggs| && touches(eggs[k]) && |buffer| < cap then
      ForEachCollect(eggs[..k] + eggs[k + 1..], buffer + [eggs[k].kind], touches, cap, k + 1, n)
    else ForEachCollect(eggs, buffer, touches, cap, k + 1, n)
  }

  /**
   * Two eggs both touching the human with an empty buffer: the loop as
   * written buffers only the first and leaves the second, still touching,
   * in the list although the buffer has room; the intended pass takes both.
   */
  lemma ForEachSkipsTheNextEgg(a: Egg, b: Egg, touches: Egg -> bool)
    requires touches(a) && touches(b)
    ensures ForEachCollect([a, b], [], touches, 3, 0, 2) == ([b], [a.kind])
    ensures Collect([a, b], [], touches, 3) == ([], [a.kind, b.kind])
  {
    var ab := [a, b];
    assert ab[0] == a && ab[..0] + ab[1..] == [b];
    assert [] + [a.kind] == [a.kind];
    calc {
      ForEachCollect(ab, [], touches, 3, 0, 2);
      ForEachCollect([b], [a.kind], touches, 3, 1, 2);
      ForEachCollect([b], [a.kind], touches, 3, 2, 2);
    }
    assert ab[1..] == [b] && [b][1..] == [];
    assert [a.kind] + [b.kind] == [a.kind, b.kind];
    calc {
      Collect(ab, [], touches, 3);
      Collect([b], [a.kind], touches, 3);
      Collect([], [a.kind, b.kind], touches, 3);
    }
  }

}

=== FILE: rules.dfy ===
/**
 * The pure formulas of the match: spawn pacing, the countdown and its
 * difficulty steps, the combo multiplier, the value of a buffered transfer,
 * the final ranking, difficulty scaling, achievements and the power-up and
 * AI-ability timers. The game class keeps its state in fields and each of
 * its methods is tied to one of these functions.
 */
module Rules {
  import opened Entities

  // ----- spawning -------------------------------------------------------

  /** Seconds between spawns: `max(0.5, 2 - 0.2 * difficulty)`. */
  function SpawnInterval(difficulty: real): (r: real)
    ensures r >= 0.5
    ensures difficulty >= 0.0 ==> r <= 2.0
    ensures difficulty >= 7.5 ==> r == 0.5
  {
    Max(0.5, 2.0 - difficulty * 0.2)
  }

  /** Raising the difficulty never slows spawning down. */
  lemma SpawnIntervalAntitone(d1: real, d2: real)
    requires d1 <= d2
    ensures SpawnInterval(d2) <= SpawnInterval(d1)
  {
    assert 2.0 - d2 * 0.2 <= 2.0 - d1 * 0.2;
  }

  /** Egg kind from the draws: below 0.85 normal, otherwise golden below 0.9 on the second draw, else bomb. */
  function SpawnKind(r1: real, r2: real): (k: EggKind)
    ensures k == Normal <==> r1 < 0.85
    ensures k == Golden <==> r1 >= 0.85 && r2 < 0.9
  {
    if r1 < 0.85 then Normal else if r2 < 0.9 then Golden else Bomb
  }

  function CatcherIndex(c: Catcher): (i: nat)
    ensures i < 4
  {
    match c
    case Human => 0
    case Ai1 => 1
    case Ai2 => 2
    case Ai3 => 3
  }

  /** Target from `Math.floor(r * 4)` over human, ai1, ai2, ai3: each catcher owns a quarter of [0, 1). */
  function SpawnTarget(r: real): (c: Catcher)
    requires 0.0 <= r < 1.0
    ensures CatcherIndex(c) as real <= 4.0 * r < CatcherIndex(c) as real + 1.0
  {
    var i := (r * 4.0).Floor;
    if i == 0 then Human else if i == 1 then Ai1 else if i == 2 then Ai2 else Ai3
  }

  // ----- countdown ------------------------------------------------------

  /** One second of the countdown: time drops by 1; difficulty gains 0.5 on a positive multiple of 15. */
  function CountdownStep(timeRemaining: int, difficulty: real): (r: (int, real))
    ensures r.0 == timeRemaining - 1
    ensures difficulty <= r.1 <= difficulty + 0.5
    ensures r.1 > difficulty <==> r.0 > 0 && r.0 % 15 == 0
  {
    var t := timeRemaining - 1;
    (t, if t % 15 == 0 && t > 0 then difficulty + 0.5 else difficulty)
  }

  /** `k` countdown seconds applied to a state. */
  function Countdown(timeRemaining: int, difficulty: real, k: nat): (int, real)
  {
    if k == 0 then (timeRemaining, difficulty)
    else
      var s := Countdown(timeRemaining, difficulty, k - 1);
      CountdownStep(s.0, s.1)
  }

  /** Number of difficulty steps taken after `k` seconds of a 60-second match. */
  function StepsAfter(k: nat): nat
  {
    if k >= 60 then 3 else k / 15
  }

  /** Second `k` of the match completes a quarter exactly when the clock then reads a multiple of 15. */
  lemma QuarterStep(k: nat)
    requires 0 < k < 60
    ensures (k - 1) / 15 + (if k % 15 == 0 then 1 else 0) == k / 15
    ensures (60 - k) % 15 == 0 <==> k % 15 == 0
  {
    var q, r := k / 15, k % 15;
    assert k == 15 * q + r && 0 <= r < 15;
    if r == 0 {
      assert k - 1 == 15 * (q - 1) + 14;
    } else {
      assert k - 1 == 15 * q + (r - 1);
    }
    assert 60 - k == 15 * (4 - q) - r;
  }

  /**
   * From the start of a match (60 s, difficulty 1), after `k` <= 60 seconds
   * the clock reads 60 - k and the difficulty is 1 + 0.5 per completed
   * quarter: 1.5 at 15 s, 2.0 at 30 s, 2.5 from 45 s to the end.
   */
  lemma {:induction false} CountdownDifficulty(k: nat)
    requires k <= 60
    ensures Countdown(60, 1.0, k) == (60 - k, 1.0 + 0.5 * StepsAfter(k) as real)
  {
    if k > 0 {
      CountdownDifficulty(k - 1);
      var prev := Countdown(60, 1.0, k - 1);
      assert prev.0 == 61 - k && prev.1 == 1.0 + 0.5 * ((k - 1) / 15) as real;
      if k < 60 {
        QuarterStep(k);
      } else {
        assert prev == (1, 2.5);
      }
    }
  }

  /** Difficulty never decreases over any number of countdown seconds. */
  lemma {:induction false} CountdownMonotone(t: int, d: real, k: nat)
    ensures Countdown(t, d, k).1 >= d
    ensures Countdown(t, d, k).0 == t - k
  {
    if k > 0 {
      CountdownMonotone(t, d, k - 1);
    }
  }

  // ----- combo ----------------------------------------------------------

  /** Combo streak state: counter, best counter, multiplier, seconds left in the decay window. */
  datatype Combo = Combo(combo: int, maxCombo: int, multiplier: real, timeout: real)
  {
    /** The multiplier matches the counter: 1 with no streak, 1 + 0.2 (combo - 1) otherwise. */
    predicate Consistent()
    {
      && 0 <= combo <= maxCombo
      && multiplier == (if combo == 0 then 1.0 else 1.0 + (combo - 1) as real * 0.2)
    }
  }

  const NoCombo := Combo(0, 0, 1.0, 0.0)

  /** The combo part of a transfer. */
  function ComboOnTransfer(c: Combo): (r: Combo)
    ensures c.Consistent() ==> r.Consistent()
    ensures r.combo == c.combo + 1 && r.timeout == 3.0
    ensures r.maxCombo >= c.maxCombo && r.maxCombo >= r.combo
    ensures r.maxCombo == c.maxCombo || r.maxCombo == r.combo
    ensures r.multiplier == 1.0 + (r.combo - 1) as real * 0.2
  {
    var n := c.combo + 1;
    Combo(n, if c.maxCombo >= n then c.maxCombo else n, 1.0 + (n - 1) as real * 0.2, 3.0)
  }

  /** The per-frame decay: a running window counts down and, when it runs out, ends the streak. */
  function ComboDecay(c: Combo, dt: real): (r: Combo)
    ensures c.Consistent() ==> r.Consistent()
    ensures r.maxCombo == c.maxCombo
    ensures (r.combo, r.multiplier) != (c.combo, c.multiplier) ==> r.combo == 0 && r.multiplier == 1.0
    ensures c.timeout > 0.0 && c.timeout - dt <= 0.0 ==> r.combo == 0 && r.multiplier == 1.0
    ensures c.timeout <= 0.0 ==> r == c
    ensures c.timeout > 0.0 && c.timeout - dt > 0.0 ==> r == c.(timeout := c.timeout - dt)
  {
    if c.timeout > 0.0 then
      var t := c.timeout - dt;
      if t <= 0.0 then c.(combo := 0, multiplier := 1.0, timeout := t) else c.(timeout := t)
    else c
  }

  /** Transfers separated by the given frame gaps: transfer, then decay by each gap. */
  function Streak(c: Combo, gaps: seq<real>): Combo
    decreases |gaps|
  {
    if gaps == [] then c
    else Streak(ComboDecay(ComboOnTransfer(c), gaps[0]), gaps[1..])
  }

  /**
   * n transfers each followed by less than 3 seconds of decay extend the
   * streak by n, and the multiplier is then 1 + 0.2 (combo - 1); from no
   * streak that is 1 + 0.2 (n - 1).
   */
  lemma {:induction false} StreakMultiplier(c: Combo, gaps: seq<real>)
    requires c.Consistent()
    requires forall i :: 0 <= i < |gaps| ==> 0.0 <= gaps[i] < 3.0
    ensures Streak(c, gaps).combo == c.combo + |gaps|
    ensures Streak(c, gaps).Consistent()
    ensures gaps != [] ==> Streak(c, gaps).multiplier == 1.0 + (c.combo + |gaps| - 1) as real * 0.2
    decreases |gaps|
  {
    if gaps != [] {
      StreakMultiplier(ComboDecay(ComboOnTransfer(c), gaps[0]), gaps[1..]);
    }
  }

  /** After a transfer, a decay of 3 seconds or more ends the streak. */
  lemma StreakEndsAfterWindow(c: Combo, dt: real)
    requires dt >= 3.0
    ensures ComboDecay(ComboOnTransfer(c), dt).combo == 0
    ensures ComboDecay(ComboOnTransfer(c), dt).multiplier == 1.0
  {
  }

  // ----- transfer -------------------------------------------------------

  /** Sum of the buffered eggs' points, accumulated in buffer order. */
  function BufferValue(buffer: seq<EggKind>): int
  {
    if buffer == [] then 0 else BufferValue(buffer[..|buffer| - 1]) + Points(buffer[|buffer| - 1])
  }

  /** What a transfer adds to the human's score: the buffer's points times the combo multiplier. */
  function TransferGain(buffer: seq<EggKind>, multiplier: real): real
  {
    BufferValue(buffer) as real * multiplier
  }

  /** A buffer of n eggs is worth between -2n and 3n points. */
  lemma {:induction false} BufferValueBounds(buffer: seq<EggKind>)
    ensures -2 * |buffer| <= BufferValue(buffer) <= 3 * |buffer|
    decreases |buffer|
  {
    if buffer != [] {
      BufferValueBounds(buffer[..|buffer| - 1]);
    }
  }

  /**
   * The accumulation order does not matter: a buffer is worth 3 per golden
   * egg and 1 per normal egg, less 2 per bomb.
   */
  lemma {:induction false} BufferValueByCount(buffer: seq<EggKind>)
    ensures BufferValue(buffer) + 2 * multiset(buffer)[Bomb] == 3 * multiset(buffer)[Golden] + multiset(buffer)[Normal]
    decreases |buffer|
  {
    if buffer != [] {
      var init := buffer[..|buffer| - 1];
      BufferValueByCount(init);
      assert buffer == init + [buffer[|buffer| - 1]];
    }
  }

  /** A buffer of one bomb transferred at a score of 0 leaves the score negative: transfers are not floored. */
  lemma TransferIsNotFloored()
    ensures 0.0 + TransferGain([Bomb], 1.0) < 0.0
  {
    assert [Bomb][..0] == [];
  }

  // ----- end of match ---------------------------------------------------

  datatype Standing = Standing(who: Catcher, score: real)

  /** The standings in the order the end screen lists them: you, novice, intermediate, expert. */
  function Standings(s: Scores): (r: seq<Standing>)
    ensures |r| == 4
    ensures forall i :: 0 <= i < 4 ==> CatcherIndex(r[i].who) == i && r[i].score == s.Get(r[i].who)
  {
    [Standing(Human, s.player), Standing(Ai1, s.ai1), Standing(Ai2, s.ai2), Standing(Ai3, s.ai3)]
  }

  /** Stable insertion: `x` goes before the first standing whose score is not above its own. */
  function Insert(x: Standing, sorted: seq<Standing>): (r: seq<Standing>)
    ensures multiset(r) == multiset(sorted) + multiset{x}
    ensures |r| == |sorted| + 1
    ensures forall y :: y in r <==> y == x || y in sorted
  {
    if sorted == [] || sorted[0].score <= x.score then [x] + sorted
    else
      assert sorted == [sorted[0]] + sorted[1..];
      [sorted[0]] + Insert(x, sorted[1..])
  }

  /** `scores.sort((a, b) => b.score - a.score)`: a stable sort, highest score first. */
  function Ranking(s: seq<Standing>): (r: seq<Standing>)
    ensures multiset(r) == multiset(s)
    ensures |r| == |s|
    ensures forall y :: y in r <==> y in s
  {
    if s == [] then []
    else
      assert s == [s[0]] + s[1..];
      Insert(s[0], Ranking(s[1..]))
  }

  ghost predicate Descending(r: seq<Standing>)
  {
    forall i, j :: 0 <= i < j < |r| ==> r[i].score >= r[j].score
  }

  /** Among equal scores the earlier entrant (lower catcher index) comes first. */
  ghost predicate TiesInEntryOrder(r: seq<Standing>)
  {
    forall i, j :: 0 <= i < j < |r| && r[i].score == r[j].score ==> CatcherIndex(r[i].who) < CatcherIndex(r[j].who)
  }

  ghost predicate EntryOrder(s: seq<Standing>)
  {
    forall i, j :: 0 <= i < j < |s| ==> CatcherIndex(s[i].who) < CatcherIndex(s[j].who)
  }

  /** Putting in front a standing that outranks every member keeps a ranking ordered. */
  lemma ConsSorted(h: Standing, r: seq<Standing>)
    requires Descending(r) && TiesInEntryOrder(r)
    requires forall y :: y in r ==> h.score >= y.score && (h.score == y.score ==> CatcherIndex(h.who) < CatcherIndex(y.who))
    ensures Descending([h] + r) && TiesInEntryOrder([h] + r)
  {
    var hr := [h] + r;
    forall j | 0 < j < |hr| ensures hr[j] == r[j - 1] && hr[j] in r {
    }
  }

  lemma {:induction false} InsertSorted(x: Standing, sorted: seq<Standing>)
    requires Descending(sorted) && TiesInEntryOrder(sorted)
    requires forall i :: 0 <= i < |sorted| ==> CatcherIndex(x.who) < CatcherIndex(sorted[i].who)
    ensures Descending(Insert(x, sorted)) && TiesInEntryOrder(Insert(x, sorted))
    decreases |sorted|
  {
    if sorted != [] && sorted[0].score > x.score {
      var h, tail := sorted[0], sorted[1..];
      InsertSorted(x, tail);
      var rt := Insert(x, tail);
      forall y | y in rt
        ensures h.score >= y.score && (h.score == y.score ==> CatcherIndex(h.who) < CatcherIndex(y.who))
      {
        if y != x {
          var k :| 0 <= k < |tail| && tail[k] == y;
          assert tail[k] == sorted[k + 1];
        }
      }
      ConsSorted(h, rt);
    }
  }

  /** The final ranking lists the highest score first and breaks ties in entry order. */
  lemma {:induction false} RankingSortedAndStable(s: seq<Standing>)
    requires EntryOrder(s)
    ensures Descending(Ranking(s)) && TiesInEntryOrder(Ranking(s))
    ensures multiset(Ranking(s)) == multiset(s)
    decreases |s|
  {
    if s != [] {
      var tail := s[1..];
      RankingSortedAndStable(tail);
      var rt := Ranking(tail);
      forall i | 0 <= i < |rt|
        ensures CatcherIndex(s[0].who) < CatcherIndex(rt[i].who)
      {
        assert rt[i] in tail;
        var k :| 0 <= k < |tail| && tail[k] == rt[i];
        assert tail[k] == s[k + 1];
      }
      InsertSorted(s[0], rt);
    }
  }

  /** The winner named on the end screen (the ranking's head) holds the top score. */
  lemma WinnerHasTopScore(s: seq<Standing>)
    requires EntryOrder(s) && s != []
    ensures forall y :: y in s ==> Ranking(s)[0].score >= y.score
  {
    RankingSortedAndStable(s);
    var r := Ranking(s);
    forall y | y in s ensures r[0].score >= y.score {
      assert y in r;
      var k :| 0 <= k < |r| && r[k] == y;
    }
  }

  /** The end screen's standings are listed in entry order. */
  lemma StandingsInEntryOrder(sc: Scores)
    ensures EntryOrder(Standings(sc))
  {
  }

  /**
   * The final ranking of a score table: all four standings, highest score
   * first, ties in entry order, the winner holding the top score.
   */
  lemma FinalRanking(sc: Scores)
    ensures var r := Ranking(Standings(sc));
      && |r| == 4 && multiset(r) == multiset(Standings(sc))
      && Descending(r) && TiesInEntryOrder(r)
      && forall y :: y in Standings(sc) ==> r[0].score >= y.score
  {
    StandingsInEntryOrder(sc);
    RankingSortedAndStable(Standings(sc));
    WinnerHasTopScore(Standings(sc));
  }

  // ----- difficulty scaling ---------------------------------------------

  datatype Scaling = Scaling(eggSpawnRate: real, eggSpeed: real, powerUpSpawnRate: real, aiAbilityCooldown: real)

  const InitialScaling := Scaling(1.0, 1.0, 1.0, 1.0)

  /** Scaling from elapsed match time and the human's score. */
  function DifficultyScaling(timeRemaining: int, playerScore: real): (r: Scaling)
    ensures 0.5 <= r.aiAbilityCooldown
    ensures playerScore >= 0.0 ==> r.aiAbilityCooldown <= 1.0
    ensures 0 <= timeRemaining <= 60 ==> 1.2 <= r.eggSpawnRate <= 2.4 && 1.1 <= r.eggSpeed <= 2.2 && 0.8 <= r.powerUpSpawnRate <= 1.6
  {
    var timeFactor := 1.0 + (60 - timeRemaining) as real / 60.0;
    var scoreFactor := 1.0 + playerScore / 100.0;
    Scaling(timeFactor * 1.2, timeFactor * 1.1, timeFactor * 0.8, Max(0.5, 1.0 - (scoreFactor - 1.0) * 0.2))
  }

  // ----- achievements ---------------------------------------------------

  datatype Achievement = FirstEgg | GoldenMaster | ComboKing | SpeedDemon | PerfectGame

  datatype Stats = Stats(eggsCaught: int, goldenEggsCaught: int, eggsDropped: int, powerUpsCollected: int, combosAchieved: int)

  const NoStats := Stats(0, 0, 0, 0, 0)

  /** The unlock condition of each achievement. */
  predicate Triggered(a: Achievement, stats: Stats, maxCombo: int, timeRemaining: int)
  {
    match a
    case FirstEgg => stats.eggsCaught == 1
    case GoldenMaster => stats.goldenEggsCaught >= 10
    case ComboKing => maxCombo >= 5
    case SpeedDemon => stats.powerUpsCollected >= 3
    case PerfectGame => stats.eggsDropped == 0 && timeRemaining <= 0
  }

  /** One achievement check: every triggered achievement is earned; nothing earned is ever lost. */
  function CheckAchievements(earned: set<Achievement>, stats: Stats, maxCombo: int, timeRemaining: int): (r: set<Achievement>)
    ensures earned <= r
    ensures forall a :: a in r ==> a in earned || Triggered(a, stats, maxCombo, timeRemaining)
    ensures forall a :: Triggered(a, stats, maxCombo, timeRemaining) ==> a in r
  {
    earned + set a | a in {FirstEgg, GoldenMaster, ComboKing, SpeedDemon, PerfectGame} && Triggered(a, stats, maxCombo, timeRemaining)
  }

  // ----- power-ups ------------------------------------------------------

  datatype PowerUpKind = SpeedBoost | EggMagnet | Shield

  /** A power-up slot: whether its effect runs, seconds left, and the pickup waiting in the arena. */
  datatype PowerUp = PowerUp(active: bool, duration: real, pickup: Option<Vec>)

  const IdlePowerUp := PowerUp(false, 0.0, None)

  /** Per-frame timer: an active power-up loses dt and switches off once its time is used up. */
  function DecayPowerUp(p: PowerUp, dt: real): (r: PowerUp)
    ensures r.pickup == p.pickup
    ensures !p.active ==> r == p
    ensures r.active ==> p.active && r.duration == p.duration - dt > 0.0
  {
    if p.active then
      var d := p.duration - dt;
      PowerUp(d > 0.0, d, p.pickup)
    else p
  }

  /** Collecting a pickup runs the effect for 10 seconds and removes the pickup. */
  function CollectPowerUp(p: PowerUp): (r: PowerUp)
    ensures r.active && r.duration == 10.0 && r.pickup.None?
  {
    PowerUp(true, 10.0, None)
  }

  function Sum(dts: seq<real>): real
    decreases |dts|
  {
    if dts == [] then 0.0 else dts[0] + Sum(dts[1..])
  }

  function DecayAll(p: PowerUp, dts: seq<real>): PowerUp
    decreases |dts|
  {
    if dts == [] then p else DecayAll(DecayPowerUp(p, dts[0]), dts[1..])
  }

  /** With positive frame times, a collected power-up is still on exactly while less than 10 seconds have passed. */
  lemma {:induction false} PowerUpLastsItsDuration(p: PowerUp, dts: seq<real>)
    requires p.active && p.duration > 0.0
    requires forall i :: 0 <= i < |dts| ==> dts[i] > 0.0
    ensures DecayAll(p, dts).active <==> Sum(dts) < p.duration
    decreases |dts|
  {
    if dts != [] {
      var q := DecayPowerUp(p, dts[0]);
      if q.active {
        PowerUpLastsItsDuration(q, dts[1..]);
      } else {
        InactiveStaysOff(q, dts[1..]);
        SumNonNegative(dts[1..]);
      }
    }
  }

  lemma {:induction false} InactiveStaysOff(p: PowerUp, dts: seq<real>)
    requires !p.active
    ensures DecayAll(p, dts) == p
    decreases |dts|
  {
    if dts != [] {
      InactiveStaysOff(p, dts[1..]);
    }
  }

  // ----- AI abilities ---------------------------------------------------

  datatype Ability = Ability(cooldown: real, duration: real, active: bool)

  const IdleAbility := Ability(0.0, 0.0, false)

  /** Per-frame timers: a running cooldown and a running effect each lose dt; the effect ends at 0. */
  function DecayAbility(a: Ability, dt: real): (r: Ability)
    ensures a.cooldown > 0.0 ==> r.cooldown == a.cooldown - dt
    ensures a.cooldown <= 0.0 ==> r.cooldown == a.cooldown
    ensures a.duration > 0.0 ==> r.duration == a.duration - dt
    ensures a.duration <= 0.0 ==> r.duration == a.duration && r.active == a.active
    ensures a.duration > 0.0 && a.duration - dt <= 0.0 ==> !r.active
    ensures a.duration - dt > 0.0 ==> r.active == a.active
    ensures r.active ==> a.active
  {
    var c := if a.cooldown > 0.0 then a.cooldown - dt else a.cooldown;
    if a.duration > 0.0 then
      var d := a.duration - dt;
      Ability(c, d, if d <= 0.0 then false else a.active)
    else Ability(c, a.duration, a.active)
  }

  /** Effect length and cooldown of each AI's ability: shield 5/15, magnet 8/20, golden touch 10/25. */
  function AbilityTimes(key: Catcher): (r: (real, real))
    requires key != Human
    ensures 0.0 < r.0 < r.1
  {
    match key
    case Ai1 => (5.0, 15.0)
    case Ai2 => (8.0, 20.0)
    case Ai3 => (10.0, 25.0)
  }

  /** Activation is refused while the cooldown runs; otherwise the effect starts and the cooldown is armed. */
  function ActivateAbility(key: Catcher, a: Ability): (r: Ability)
    requires key != Human
    ensures a.cooldown > 0.0 ==> r == a
    ensures a.cooldown <= 0.0 ==> r.active && r.cooldown > r.duration > 0.0
  {
    if a.cooldown > 0.0 then a
    else
      var t := AbilityTimes(key);
      Ability(t.1, t.0, true)
  }

  function DecayAbilityAll(a: Ability, dts: seq<real>): Ability
    decreases |dts|
  {
    if dts == [] then a else DecayAbilityAll(DecayAbility(a, dts[0]), dts[1..])
  }

  /**
   * Once activated, an ability cannot be activated again until at least its
   * cooldown has elapsed: while the frame times sum to less than the
   * cooldown, a further activation changes nothing.
   */
  lemma {:induction false} NoReactivationWithinCooldown(key: Catcher, a: Ability, dts: seq<real>)
    requires key != Human && a.cooldown <= 0.0
    requires forall i :: 0 <= i < |dts| ==> dts[i] >= 0.0
    requires Sum(dts) < AbilityTimes(key).1
    ensures var b := DecayAbilityAll(ActivateAbility(key, a), dts);
      ActivateAbility(key, b) == b
  {
    CooldownRunsDown(ActivateAbility(key, a), dts);
  }

  lemma {:induction false} CooldownRunsDown(a: Ability, dts: seq<real>)
    requires forall i :: 0 <= i < |dts| ==> dts[i] >= 0.0
    requires Sum(dts) < a.cooldown
    ensures DecayAbilityAll(a, dts).cooldown == a.cooldown - Sum(dts)
    decreases |dts|
  {
    if dts != [] {
      SumNonNegative(dts[1..]);
      CooldownRunsDown(DecayAbility(a, dts[0]), dts[1..]);
    }
  }

  /** An effect that has ended (switched off, no time left) stays off over any frames. */
  lemma {:induction false} EndedAbilityStaysOff(a: Ability, dts: seq<real>)
    requires !a.active && a.duration <= 0.0
    ensures !DecayAbilityAll(a, dts).active
    decreases |dts|
  {
    if dts != [] {
      EndedAbilityStaysOff(DecayAbility(a, dts[0]), dts[1..]);
    }
  }

  /** With positive frame times, a running effect stays on exactly while less than its time left has passed. */
  lemma {:induction false} EffectLastsItsDuration(a: Ability, dts: seq<real>)
    requires a.active && a.duration > 0.0
    requires forall i :: 0 <= i < |dts| ==> dts[i] > 0.0
    ensures DecayAbilityAll(a, dts).active <==> Sum(dts) < a.duration
    decreases |dts|
  {
    if dts != [] {
      var b := DecayAbility(a, dts[0]);
      if b.active {
        EffectLastsItsDuration(b, dts[1..]);
      } else {
        EndedAbilityStaysOff(b, dts[1..]);
        SumNonNegative(dts[1..]);
      }
    }
  }

  /** An activated AI effect (shield 5 s, magnet 8 s, golden touch 10 s) is on exactly while less than its length has passed. */
  lemma AbilityLastsItsDuration(key: Catcher, a: Ability, dts: seq<real>)
    requires key != Human && a.cooldown <= 0.0
    requires forall i :: 0 <= i < |dts| ==> dts[i] > 0.0
    ensures DecayAbilityAll(ActivateAbility(key, a), dts).active <==> Sum(dts) < AbilityTimes(key).0
  {
    EffectLastsItsDuration(ActivateAbility(key, a), dts);
  }

  lemma {:induction false} SumNonNegative(dts: seq<real>)
    requires forall i :: 0 <= i < |dts| ==> dts[i] >= 0.0
    ensures Sum(dts) >= 0.0
    decreases |dts|
  {
    if dts != [] {
      SumNonNegative(dts[1..]);
    }
  }
}
